=== FILE: README.md ===
# Order management core, modelled in Dafny

The model covers the sequential logic of a small order-management system.

- **Ingestion.** `createOrder` finds or creates the customer by email, inserts a `pending` order, publishes `{ orderId }` to `orders_queue`, then indexes the order for search.
- **Fulfilment worker.** For one `{ orderId }` message it appends processing-log rows in a fixed order. It then writes `completed` or `failed`, re-indexes the order and acknowledges the message.
- **Cache-aside read.** `getOrderById` checks the order exists, serves the cached snapshot, or reads the joined row and stores it in the cache, calling `set` with `EX 30`.
- **Search request shaping.** `orderSearch` detects a status word in the input and computes the page window. `searchOrders` builds the `bool.must` clause list, and `indexOrder` builds the document projection.
- **Client state.** The `orders` and `report` state slices (pending / fulfilled / rejected reducers) and the `handleApiError` classifier.

Every operation is a pure function. The worker maps a store to a new store plus a trace of what it did: log writes, status writes, re-index, acknowledge. The lemma `TraceAccountsForStore` shows that replaying that trace on the old store gives the new one.

Failures are parameters. An optional fault names the awaited call that throws. `paymentSuccess` is the simulated payment outcome, which the code fixes to `true`. The search engine is a function parameter.

The worker is written twice:

- once as the code runs (`TryBlock`, `CatchBlock`);
- once path by path (`ExpectedStore`, `ExpectedTrace`).

`Handle`'s contract says the two agree, and every worker property is proved from the path-by-path description.

Modules:

| module | file | covers |
|---|---|---|
| `Wrappers` | `wrappers.dfy` | `Option` |
| `Json` | `json.dfy` | JavaScript values, truthiness, `a.b`, `a?.b`, `a \|\| b` |
| `Text` | `text.dfy` | `trim`, `toLowerCase`, `String(n)` for integers |
| `Store` | `store.dfy` | customers, orders and the processing log with their database calls |
| `Search` | `search.dfy` | `indexOrder`, `searchOrders` |
| `Worker` | `worker.dfy` | the message handler of the fulfilment worker |
| `Controller` | `controller.dfy` | `createOrder`, `getOrderById`, `orderSearch` |
| `OrdersSlice` | `orders_slice.dfy` | the `orders` reducer |
| `ReportSlice` | `report_slice.dfy` | the `report` reducer |
| `ApiError` | `api_error.dfy` | `handleApiError` |

Three behaviours of the code are worth knowing before reading the contracts:

- **Publish failure.** A failed publish answers 500 although the order row is already stored (`PublishFailureKeepsOrder`).
- **Status word in search.** When the input is a status word, the query holds both the text clause over the raw input and the status term (`StatusAndTextBothSent`).
- **No terminal-state guard.** The worker processes an order whatever its status. Re-processing a finished order makes it `completed` again (`ReprocessingTerminalOrder`), and an exception after `completed` is written turns it into `failed` (`LateFaultOverwritesCompleted`).

## Model

| member | source | states |
|---|---|---|
| Worker.Handle | Backend/workers/orderWorker.js:29-99 | the handler's try/catch code, stretch by stretch, yields exactly the store and trace of the path-by-path description |
| Worker.TryBlockOutcome | Backend/workers/orderWorker.js:34-80 | the `try` block returns, or throws with the failing call's message after the rows written before it |
| Worker.CatchOutcome | Backend/workers/orderWorker.js:81-98 | the `catch` block logs worker/error, writes `failed`, then re-indexes and acknowledges only if the order can be re-read |
| Worker.SuccessPath | Backend/workers/orderWorker.js:35-80 | without a fault, the log gains validation/success, payment/processing, payment/success, invoice/success in that order, the status becomes `completed`, then re-index with the re-read order, then ack |
| Worker.PaymentFailurePath | Backend/workers/orderWorker.js:53-64 | on payment failure the log gains validation, payment started, payment/error; status `failed`; trace ends in `failed` then ack, with no invoice row and no re-index |
| Worker.ExceptionPath | Backend/workers/orderWorker.js:81-91 | when a call throws, the log is the rows already written plus one worker/error row with the error's message or "unknown", the status is `failed`, and the message is acknowledged iff the order exists |
| Worker.RowsAreForOrder | Backend/workers/orderWorker.js:35-89 | every row the handler writes carries the message's order id |
| Worker.LogAppendOnly | Backend/workers/orderWorker.js:35-89 | the old log is a prefix of the new one and every added row is for this order |
| Worker.OnlyThisOrderChanges | Backend/workers/orderWorker.js:61-91 | customers, counters and every other order are untouched; every modelled field of this order except its status is kept (the update time is not modelled) |
| Worker.StatusWritesAreTerminal | Backend/workers/orderWorker.js:61-91 | every status write in the trace is for this order and is `completed` or `failed` |
| Worker.AckOnceAndLast | Backend/workers/orderWorker.js:62-97 | the trace holds an ack exactly on the paths that finish, at most once, and as the last action |
| Worker.ReindexAfterStatusWrite | Backend/workers/orderWorker.js:73-95 | re-indexing happens exactly when the order exists and the success or exception path runs; it directly follows the final status write and uses the re-read order and its customer |
| Worker.TraceSplit | Backend/workers/orderWorker.js:35-97 | the trace is log writes (and maybe `completed`), then the final status write, then re-index/ack |
| Worker.ReprocessingTerminalOrder | Backend/workers/orderWorker.js:29-80 | re-processing a `completed` or `failed` order appends four more rows and leaves it `completed` |
| Worker.LateFaultOverwritesCompleted | Backend/workers/orderWorker.js:73-91 | a throw after `completed` is written (re-reading the order or customer) leaves a trace writing `completed` then `failed`, and the order ends `failed` |
| Worker.TraceAccountsForStore | Backend/workers/orderWorker.js:35-97 | replaying the trace's writes on the old store gives exactly the new store |
| Worker.ErrorText | Backend/workers/orderWorker.js:88 | the logged text is the error's own message when that is non-empty, and "unknown" otherwise |
| Worker.RowSpellings | Backend/workers/orderWorker.js:35-89 | the planned rows spell validation/success, payment/processing, payment/success or payment/error, invoice/success, and the error row worker/error |
| Store.InsertCustomer | Backend/controllers/order.controller.js:15-19 | a customer row under the next id, refused iff the email is already taken; preserves store integrity |
| Store.FindCustomerByEmail | Backend/controllers/order.controller.js:12 | in a valid store, finds the customer with that email, and finds none iff no customer has it |
| Store.InsertOrder | Backend/controllers/order.controller.js:22-26 | an order row under the next id with the given customer, status and details, nothing else changed |
| Store.UpdateStatus | Backend/workers/orderWorker.js:73 | rewrites only the status of the matching row; a missing id changes nothing |
| Store.AppendLog | Backend/workers/orderWorker.js:35-40 | `OrderProcessingLog.create` adds exactly the given row at the end of the log and changes nothing else; integrity preserved |
| Store.FindOrder | Backend/workers/orderWorker.js:75 | `Order.findByPk` finds a row iff the id is stored, and then it is that row |
| Store.FindCustomer | Backend/workers/orderWorker.js:76 | `Customer.findByPk` finds a row iff the id is stored, and then it is that row |
| Controller.CreateOrder | Backend/controllers/order.controller.js:8-41 | in a valid store, 200 `{orderId, completed: true}` iff a customer was given and no reached call throws; then one `pending` order with exactly the submitted details and one message to `orders_queue`; an existing customer is reused, and existing customers and email index entries are never changed; integrity preserved; the reply's status and body |
| Controller.FindOrCreateCustomer | Backend/controllers/order.controller.js:12-20 | the existing customer with the email is returned and the store is unchanged; otherwise a new customer under the next id is added to the customers and the email index, nothing else changing |
| Controller.RepeatedSubmissionsShareCustomer | Backend/controllers/order.controller.js:12-20 | two submissions with one email add no second customer and both orders point to the same customer |
| Controller.PublishFailureKeepsOrder | Backend/controllers/order.controller.js:22-39 | a failed publish answers 500 while the new `pending` order stays stored and no message is sent |
| Controller.FailedSubmissionStoresNoOrder | Backend/controllers/order.controller.js:8-26 | a submission that fails before its order is created (no customer, or a throw from the customer lookup, the customer insert or the order insert) leaves the orders and the order counter as they were |
| Controller.IndexingIsInvisible | Backend/controllers/order.controller.js:30-36 | whether indexing works changes neither the reply, nor the store, nor the published message |
| Controller.AcceptedOrderIsIndexed | Backend/controllers/order.controller.js:30-34 | in a valid store, an accepted submission leaves the index as indexing the stored order with its customer makes it |
| Controller.GetOrderById | Backend/controllers/order.controller.js:43-73 | 400 with no cache access for a missing order; a hit returns the cached value as "cache" and writes nothing; a miss returns the joined row as "db" and caches it under `order:{id}` with expiry 30; 500 exactly when a reached call throws, with the cache left as it was and at most the `get` recorded; each reply's status and body |
| Controller.OrderJson | Backend/controllers/order.controller.js:65 | the snapshot has exactly the keys id, customerId, status, orderDetails, createdAt and Customer, each holding the order's value or the joined customer |
| Controller.CacheKeyInjective | Backend/controllers/order.controller.js:45 | distinct ids have distinct cache keys |
| Controller.ReadIsolated | Backend/controllers/order.controller.js:45-67 | reading one order never changes another order's cache entry |
| Controller.MissThenHit | Backend/controllers/order.controller.js:52-68 | after a miss, the next read returns the same snapshot from the cache |
| Controller.CachedReadIgnoresStore | Backend/controllers/order.controller.js:52-56 | while an order is cached, its current row (for example a new status) does not affect the reply |
| Controller.Lowered | Backend/controllers/order.controller.js:79 | nullish input gives "", a string gives its trimmed lower-cased form, any other value throws |
| Controller.SearchRequest | Backend/controllers/order.controller.js:77-89 | the raw input is the text; status is set iff the lowered input is one of the four words; from = (page-1)*size and size pass on with defaults 1 and 10 |
| Controller.ValidStatusesAreNames | Backend/controllers/order.controller.js:81 | the accepted words are exactly the spellings of the order status enum |
| Controller.StatusDetectedIff | Backend/controllers/order.controller.js:79-84 | a status is detected iff the trimmed lower-cased input spells one of the statuses |
| Controller.PaddedStatusWord | Backend/controllers/order.controller.js:79-84 | whitespace around an upper-case status word still detects that status, and the text goes out as typed |
| Controller.StatusAndTextBothSent | Backend/controllers/order.controller.js:85-89 | with a status detected, the query holds the text clause over the raw input and then the status term |
| Controller.DefaultWindow | Backend/controllers/order.controller.js:77 | without page and size, the window is from 0, size 10 |
| Controller.OrderSearch | Backend/controllers/order.controller.js:75-95 | `{ results }` iff shaping succeeds and the engine answers, with each hit's source in order; otherwise 500 |
| Search.Project | Backend/services/esService.js:43-50 | the document copies id, customerId, status and createdAt, takes customerName from the customer or null, and uses items or []; none when details are null |
| Search.IndexOrder | Backend/services/esService.js:40-61 | writes the projection under `String(order.id)` when the engine is up; otherwise, or when projection throws, the index is unchanged; other keys are kept |
| Search.IndexOrderIsolated | Backend/services/esService.js:51-56 | indexing one order never disturbs another order's document |
| Search.BuildQuery | Backend/services/esService.js:90-119 | a text clause iff text is truthy, a status term (lower-cased) iff status is truthy, text first; none gives an empty list; from and size pass through |
| Search.Sources | Backend/services/esService.js:122 | the result lists each hit's source, in hit order |
| Search.SearchOrders | Backend/services/esService.js:90-123 | the result exists iff the engine answers, and is the hits' sources |
| Text.TrimPadded | Backend/controllers/order.controller.js:79 | trimming removes exactly the whitespace padding around a trimmed word |
| Text.Trim | Backend/controllers/order.controller.js:79 | the result has no whitespace at either end and is no longer than the input |
| Text.TrimIsInfix | Backend/controllers/order.controller.js:79 | the result is the infix of the input between a whitespace-only prefix and a whitespace-only suffix |
| Text.ToLower | Backend/services/esService.js:104 | same length, and each character lower-cased in place |
| Text.IntToDecimal | Backend/services/esService.js:53 | `String(n)`: a minus sign iff negative, then the canonical digits (no leading zero except for 0 itself) that read back as the absolute value |
| Text.DecimalRoundTrip | Backend/services/esService.js:53 | reading back the decimal spelling of a natural number gives the number |
| Text.IntToDecimalInjective | Backend/services/esService.js:53 | distinct ids spell differently, so document keys and cache keys identify their id |
| OrdersSlice.Reduce | Frontend/src/store/ordersSlice.js:40-84 | each pending sets its busy flag and clears error; fulfilled clears the flag and stores payload, `payload.order` or payload; rejected clears the flag, stores the error and keeps results; clearCreateResult nulls only createResult; every other field is kept in each case |
| OrdersSlice.Dispatch | Frontend/src/store/ordersSlice.js:64-67 | a fulfilled fetch with a nullish payload throws in the reducer and leaves the state unchanged; every other action yields the reducer's state |
| OrdersSlice.InitialIsIdle | Frontend/src/store/ordersSlice.js:32-39 | initially nothing is busy and every result and the error are null |
| OrdersSlice.ErrorFollowsLastRequestEvent | Frontend/src/store/ordersSlice.js:47-84 | after any history, error is null if the last pending/rejected event was a pending, else that rejection's error |
| OrdersSlice.CreatingFollowsLastCreateEvent | Frontend/src/store/ordersSlice.js:47-58 | `creating` is true iff the last create event was its pending |
| OrdersSlice.LoadingFollowsLastLoadEvent | Frontend/src/store/ordersSlice.js:60-84 | `loading` is true iff the last fetch-or-search event was a pending |
| OrdersSlice.ResultsNeedFulfilment | Frontend/src/store/ordersSlice.js:40-84 | without fulfilled actions or clearCreateResult, the three result fields never change |
| OrdersSlice.SharedLoadingFlag | Frontend/src/store/ordersSlice.js:60-80 | a search completing while a fetch is outstanding turns `loading` off |
| ReportSlice.Reduce | Frontend/src/store/reportSlice.js:16-29 | pending sets loading and keeps data and error; fulfilled stores data; rejected stores "Failed to load report" and keeps data |
| ReportSlice.InitialIsIdle | Frontend/src/store/reportSlice.js:11-15 | initially not loading, data null, error null |
| ReportSlice.ErrorIsSticky | Frontend/src/store/reportSlice.js:16-29 | after any history, error is set iff it started set or some request was rejected, and then holds the rejection message |
| ReportSlice.RecoveryKeepsError | Frontend/src/store/reportSlice.js:21-28 | a successful load after a failure shows the data but keeps the failure message |
| ApiError.Classify | Frontend/src/utils/handleApiError.js:1-17 | ERR_NETWORK gives "Server is down or not reachable"; else a response gives `data.error` if truthy or else the status text; else "Network error" |
| Json.OptGet | Frontend/src/utils/handleApiError.js:10 | `a?.b`: undefined when `a` is nullish, otherwise the field lookup |
| Json.Or | Backend/services/esService.js:48 | `a \|\| b`: `a` when truthy, otherwise `b` |
| ApiError.CauseOf | Frontend/src/utils/handleApiError.js:2-16 | exactly one of the three cases applies, taken in the order the code examines them |
| ApiError.NetworkCodeWins | Frontend/src/utils/handleApiError.js:2-6 | with ERR_NETWORK, whether a response exists does not matter |
| ApiError.StatusTextFallback | Frontend/src/utils/handleApiError.js:8-12 | a body without an `error` field, or no body, falls back to the status text |

## Left out

- Connection and channel setup for the broker, the search engine, the cache and the database; index creation with its mapping; server start-up; route wiring; the HTTP client; logging sinks. These are I/O with no logic to state. Publishing, indexing, cache calls and acknowledgement appear as values the functions return.
- Parsing the worker's message. It happens before the `try` block, so a malformed message is outside the handler. The order id is a parameter.
- Time: the one-second payment delay, cache expiry, and the `createdAt`/`updatedAt` timestamps. `createdAt` is a parameter. No clock is modelled, so the `updatedAt` that each status update also writes is not modelled.
- Cache expiry: `getOrderById` calls `set` with the positional arguments `"EX", 30`. The model records the value 30 with the entry, and its entries never expire. Whether the Redis client in use honours positional expiry arguments depends on its version, which the source does not pin. If it ignores them, entries never expire in the running system either.
- Controller.OrderJson: the snapshot holds the order's id, customerId, status, details and createdAt, and the customer's id, name, email and phone. The `updatedAt` of the order and the timestamps of the customer that `toJSON()` also includes are not modelled.
- Email matching: emails are compared as exact strings. The database collation is not modelled. A case-insensitive collation would make `Customer.findOne` reuse the customer stored as `bob@x.com` for a submission with `Bob@x.com`, where the model creates a second customer.
- Processing-log foreign key: the worker model assumes the processing-log table accepts rows for an order id with no order. The log model declares `orderId` as a reference to `Orders`, but the table's migration is not part of this model, so whether the database enforces it is unknown. Under that assumption, a message for a missing order writes log rows. With `paymentSuccess` false it acknowledges; with `true` it adds a worker/error row and does not acknowledge. The missing-order cases of `Worker.AckOnceAndLast`, `Worker.ExceptionPath` and `Worker.LogAppendOnly` hold only under that assumption. If the constraint is enforced, the first log write throws, the write in the `catch` block throws again, and the handler rejects without writing anything or acknowledging.
- Acknowledgement never throws. If the channel were closed, `channel.ack` inside the `try` block (at the end of the success path, or after `failed` on the payment-failure path) would throw. The `catch` block would then write a worker/error row and `failed`, over `completed` on the success path, and its own `ack` would throw again, leaving the message unacknowledged. `Worker.AckOnceAndLast` and `Worker.LateFaultOverwritesCompleted` do not cover that case.
- Concurrency: competing consumers, redelivery, and concurrent requests racing on the unique email. Each call is modelled alone and in sequence.
- Failures inside the worker's `catch` block other than reading a missing order: at most one call of the `try` block throws.
- `getReport`. It is vendor SQL with aggregation.
- The `!order` branch after the joined read in `getOrderById`. Existence was checked just before, so sequentially it cannot run.
- The React pages and components.
- Floating-point numbers: JSON numbers are integers here. Non-integer `page` and `size` values, and their string-to-number coercion, are not modelled; they are optional integers.
- Serialisation of the cached snapshot. `JSON.stringify` followed by `JSON.parse` is taken as identity, and the snapshot is the joined row as a JSON value; dropped `undefined` fields and date strings are not modelled.
- Controller.GetOrderById: the request's id is an integer and its cache key is its canonical decimal spelling. A path segment such as `05`, which the database would read as 5 but which makes a different cache key, is not modelled.
- Controller.CreateOrder: the submitted customer's name, email and phone are strings. Other JSON types in those fields, and the database's reaction to them, are not modelled.
- Text.ToLower: only ASCII letters are folded. That is enough for comparing with the four status words, but not JavaScript's full Unicode case mapping.
- Search engine relevance, analysis and ranking: the engine is a function from the query to its hits.
- The worker's re-index is recorded in its trace as the order and customer it was given; `Search.IndexOrder` states what such a call does to the index.

=== FILE: api_error.dfy ===
/**
 * The client's classification of a failed HTTP call into the single-field
 * `{ error }` value a request rejects with.
 */
module ApiError {
  import opened Wrappers
  import opened Json

  /** The response part of a failed call: its body and status text. */
  datatype Response = Response(data: Json, statusText: string)

  /** The parts of the client's error that the classification reads. */
  datatype HttpError = HttpError(code: Option<string>, response: Option<Response>)

  /** The value the request is rejected with: `{ error }`. */
  datatype Rejection = Rejection(error: Json)

  const NetworkCode: string := "ERR_NETWORK"
  const ServerDown: string := "Server is down or not reachable"
  const NoResponse: string := "Network error"

  /** The three cases, in the order the code examines them. */
  datatype Cause = Unreachable | Answered | NoAnswer

  function CauseOf(e: HttpError): (c: Cause)
    ensures c == Unreachable <==> e.code == Some(NetworkCode)
    ensures c == Answered <==> e.code != Some(NetworkCode) && e.response.Some?
    ensures c == NoAnswer <==> e.code != Some(NetworkCode) && e.response.None?
  {
    if e.code == Some(NetworkCode) then Unreachable
    else if e.response.Some? then Answered
    else NoAnswer
  }

  /**
   * `handleApiError`: the network code wins; otherwise a response's
   * `data.error` if truthy, else its status text; otherwise a fixed message.
   */
  function Classify(e: HttpError): (r: Rejection)
    ensures CauseOf(e) == Unreachable ==> r.error == Str(ServerDown)
    ensures CauseOf(e) == Answered && Truthy(OptGet(e.response.value.data, "error")) ==>
      r.error == OptGet(e.response.value.data, "error")
    ensures CauseOf(e) == Answered && !Truthy(OptGet(e.response.value.data, "error")) ==>
      r.error == Str(e.response.value.statusText)
    ensures CauseOf(e) == NoAnswer ==> r.error == Str(NoResponse)
  {
    if e.code == Some(NetworkCode) then Rejection(Str(ServerDown))
    else
      match e.response
      case Some(resp) => Rejection(Or(OptGet(resp.data, "error"), Str(resp.statusText)))
      case None => Rejection(Str(NoResponse))
  }

  /** With the network code set, the response (present or not) makes no difference. */
  lemma NetworkCodeWins(e: HttpError, other: Option<Response>)
    requires e.code == Some(NetworkCode)
    ensures Classify(e) == Classify(e.(response := other))
  {
  }

  /** The error is always truthy unless a response with neither error field nor status text came back. */
  lemma ErrorIsTruthy(e: HttpError)
    requires CauseOf(e) != Answered || e.response.value.statusText != ""
    ensures Truthy(Classify(e).error)
  {
  }

  /** A body without an `error` field (or a nullish body) falls back to the status text. */
  lemma StatusTextFallback(data: Json, statusText: string)
    requires Nullish(data) || (data.Obj? && "error" !in data.fields)
    ensures Classify(HttpError(None, Some(Response(data, statusText)))).error == Str(statusText)
  {
  }
}

=== FILE: controller.dfy ===
/**
 * The three request handlers of the order API that the core consists of:
 * ingestion (`createOrder`), the cache-aside read (`getOrderById`) and the
 * search endpoint (`orderSearch`). Each is a pure function of the store, the
 * cache or the search engine it talks to, and of which awaited call (if any)
 * throws; it returns the new state, what it sent out, and the reply.
 */
module Controller {
  import opened Wrappers
  import opened Json
  import opened Text
  import opened Store
  import opened Search
  import Worker

  const InternalError: string := "Internal Server Error!"

  /** `{ message: text }`, the error body the read and search endpoints use. */
  function MessageBody(text: string): Json {
    Obj(map["message" := Str(text)])
  }

  // ---------------------------------------------------------------------
  // Ingestion.

  /** The `customer` object of a submission. */
  datatype CustomerInput = CustomerInput(name: string, email: string, phone: string)

  /** A request body `{ customer, items, shipping, extra }`; `customer` may be missing. */
  datatype Submission = Submission(customer: Option<CustomerInput>, items: Json, shipping: Json, extra: Json)

  /** A broker message: the queue and the `{ orderId }` body. */
  datatype Message = Message(queue: string, orderId: int)

  /** The awaited calls of `createOrder` that can throw. */
  datatype CreateStep = AtFindCustomer | AtCreateCustomer | AtCreateOrder | AtPublish

  datatype CreateReply =
    | Accepted(orderId: int)
    | CreateFailed
  {
    function Status(): int {
      if Accepted? then 200 else 500
    }

    /** `{ orderId, completed: true }`, or the bare string the 500 reply carries. */
    function Body(): Json {
      match this
      case Accepted(id) => Obj(map["orderId" := Num(id), "completed" := Bool(true)])
      case CreateFailed => Str(InternalError)
    }
  }

  /** What one submission leaves behind. */
  datatype Ingested = Ingested(store: Store, index: Index, published: seq<Message>, reply: CreateReply)

  /**
   * Whether `createOrder` gets as far as the call at `step`: the customer is
   * created only when none has the submitted email.
   */
  predicate Reaches(st: Store, input: CustomerInput, step: CreateStep) {
    step.AtCreateCustomer? ==> FindCustomerByEmail(st, input.email).None?
  }

  /**
   * Find the customer by email, or create one. None when a call throws;
   * the store changes only when a customer is created.
   */
  function FindOrCreateCustomer(st: Store, input: CustomerInput, fault: Option<CreateStep>): (r: Option<(Store, Customer)>)
    ensures r.Some? ==> r.value.1.email == input.email
    ensures Valid(st) && r.Some? ==>
      Valid(r.value.0) && r.value.1.id in r.value.0.customers && r.value.0.customers[r.value.1.id] == r.value.1
    ensures r.Some? && FindCustomerByEmail(st, input.email).Some? ==>
      r.value == (st, FindCustomerByEmail(st, input.email).value)
    ensures r.Some? && FindCustomerByEmail(st, input.email).None? ==>
      && r.value.1 == Customer(st.nextCustomerId, input.name, input.email, input.phone)
      && r.value.0 == st.(customers := st.customers[st.nextCustomerId := r.value.1],
                          byEmail := st.byEmail[input.email := st.nextCustomerId],
                          nextCustomerId := st.nextCustomerId + 1)
    ensures Valid(st) ==> (r.None? <==> fault.Some? && fault.value != AtCreateOrder && fault.value != AtPublish
                                        && Reaches(st, input, fault.value))
  {
    if fault.Some? && fault.value.AtFindCustomer? then None
    else
      match FindCustomerByEmail(st, input.email)
      case Some(c) => Some((st, c))
      case None =>
        if fault.Some? && fault.value.AtCreateCustomer? then None
        else
          InsertCustomer(st, input.name, input.email, input.phone)
  }

  /**
   * `createOrder`: find or create the customer, insert a `pending` order
   * holding the submitted details, publish `{ orderId }`, then index the
   * order, ignoring any indexing failure (`indexUp` false). A missing
   * `customer` or a throwing call gives the 500 reply; whatever was
   * written before the throw stays written.
   */
  function CreateOrder(st: Store, index: Index, sub: Submission, now: int,
                       fault: Option<CreateStep>, indexUp: bool): (r: Ingested)
    ensures r.store.log == st.log
    ensures r.reply.Accepted? <==> r.published != []
    ensures |r.published| <= 1
    ensures Valid(st) ==> Valid(r.store)
    ensures Valid(st) ==>
      (r.reply.Accepted? <==> sub.customer.Some? && (fault.None? || !Reaches(st, sub.customer.value, fault.value)))
    ensures r.reply.Accepted? ==> sub.customer.Some?
    ensures r.reply.Accepted? ==>
      var id := st.nextOrderId;
      && r.reply.orderId == id
      && r.published == [Message(Worker.OrdersQueue, id)]
      && r.store.nextOrderId == id + 1
      && id in r.store.orders
      && r.store.orders == st.orders[id := r.store.orders[id]]
      && r.store.orders[id].status == Pending
      && r.store.orders[id].details == Some(OrderDetails(sub.items, sub.shipping, sub.extra))
      && r.store.orders[id].createdAt == now
    ensures Valid(st) && r.reply.Accepted? ==>
      var cid := r.store.orders[st.nextOrderId].customerId;
      cid in r.store.customers && r.store.customers[cid].email == sub.customer.value.email
    ensures sub.customer.Some? && r.reply.Accepted? && FindCustomerByEmail(st, sub.customer.value.email).Some? ==>
      && r.store.customers == st.customers
      && r.store.orders[st.nextOrderId].customerId == FindCustomerByEmail(st, sub.customer.value.email).value.id
    ensures !r.reply.Accepted? ==> r.index == index
    ensures Valid(st) ==>
      forall id | id in st.customers :: id in r.store.customers && r.store.customers[id] == st.customers[id]
    ensures Valid(st) ==>
      forall e | e in st.byEmail :: e in r.store.byEmail && r.store.byEmail[e] == st.byEmail[e]
    ensures r.store.customers.Keys <= st.customers.Keys + {st.nextCustomerId}
    ensures r.reply.Accepted? ==>
      r.reply.Status() == 200 && r.reply.Body() == Obj(map["orderId" := Num(st.nextOrderId), "completed" := Bool(true)])
    ensures !r.reply.Accepted? ==> r.reply.Status() == 500 && r.reply.Body() == Str("Internal Server Error!")
  {
    if sub.customer.None? then Ingested(st, index, [], CreateFailed)
    else
      match FindOrCreateCustomer(st, sub.customer.value, fault)
      case None => Ingested(st, index, [], CreateFailed)
      case Some((st1, cust)) =>
        if fault.Some? && fault.value.AtCreateOrder? then Ingested(st1, index, [], CreateFailed)
        else
          var (st2, order) := InsertOrder(st1, cust.id, Pending, OrderDetails(sub.items, sub.shipping, sub.extra), now);
          if fault.Some? && fault.value.AtPublish? then Ingested(st2, index, [], CreateFailed)
          else
            Ingested(st2, IndexOrder(index, order, Some(cust), indexUp),
                     [Message(Worker.OrdersQueue, order.id)], Accepted(order.id))
  }

  /** Whether and how the order got indexed never shows in the reply, the store or the message sent. */
  lemma IndexingIsInvisible(st: Store, index: Index, sub: Submission, now: int, fault: Option<CreateStep>)
    ensures var up := CreateOrder(st, index, sub, now, fault, true);
            var down := CreateOrder(st, index, sub, now, fault, false);
      && up.reply == down.reply && up.store == down.store && up.published == down.published
      && down.index == index
  {
  }

  /** An accepted submission indexes the stored order, with its customer, under its id. */
  lemma AcceptedOrderIsIndexed(st: Store, index: Index, sub: Submission, now: int,
                               fault: Option<CreateStep>, indexUp: bool)
    requires Valid(st)
    ensures var r := CreateOrder(st, index, sub, now, fault, indexUp);
      r.reply.Accepted? ==>
        var o := r.store.orders[st.nextOrderId];
        r.index == IndexOrder(index, o, FindCustomer(r.store, o.customerId), indexUp)
  {
  }

  /**
   * Until `Order.create` succeeds nothing about orders is written: a missing
   * customer or any earlier throw leaves the order table and its counter as
   * they were.
   */
  lemma FailedSubmissionStoresNoOrder(st: Store, index: Index, sub: Submission, now: int,
                                      fault: Option<CreateStep>, indexUp: bool)
    ensures var r := CreateOrder(st, index, sub, now, fault, indexUp);
      !r.reply.Accepted? && !(fault.Some? && fault.value.AtPublish?) ==>
        r.store.orders == st.orders && r.store.nextOrderId == st.nextOrderId
  {
  }

  /**
   * A failed publish still answers 500, but the `pending` order it was
   * about is already stored, and no message announces it.
   */
  lemma PublishFailureKeepsOrder(st: Store, index: Index, sub: Submission, now: int, indexUp: bool)
    requires Valid(st) && sub.customer.Some?
    ensures var r := CreateOrder(st, index, sub, now, Some(AtPublish), indexUp);
      && r.reply == CreateFailed && r.reply.Status() == 500
      && r.published == []
      && st.nextOrderId in r.store.orders && st.nextOrderId !in st.orders
      && r.store.orders[st.nextOrderId].status == Pending
  {
    var input := sub.customer.value;
    var c := FindOrCreateCustomer(st, input, Some(AtPublish));
    assert c.Some?;
  }

  /**
   * Two successful submissions with one email: the second reuses the
   * customer the first found or created, so both orders belong to the same
   * customer and the second adds no customer.
   */
  lemma {:induction false} RepeatedSubmissionsShareCustomer(st: Store, index: Index, a: Submission, b: Submission,
                                                            now1: int, now2: int, up1: bool, up2: bool)
    requires Valid(st)
    requires a.customer.Some? && b.customer.Some? && a.customer.value.email == b.customer.value.email
    ensures var r1 := CreateOrder(st, index, a, now1, None, up1);
            var r2 := CreateOrder(r1.store, r1.index, b, now2, None, up2);
      && r1.reply.Accepted? && r2.reply.Accepted?
      && r2.store.customers == r1.store.customers
      && r2.store.orders[r2.reply.orderId].customerId == r1.store.orders[r1.reply.orderId].customerId
  {
    var email := a.customer.value.email;
    var r1 := CreateOrder(st, index, a, now1, None, up1);
    var id1 := r1.reply.orderId;
    var cid := r1.store.orders[id1].customerId;
    var found := FindCustomerByEmail(r1.store, email);
    assert r1.store.customers[cid].email == email;
    assert found.Some?;
    EmailsUnique(r1.store, found.value.id, cid);
  }

  // ---------------------------------------------------------------------
  // Cache-aside read.

  /** A cached value and the expiry it was stored with, in seconds. */
  datatype CacheEntry = CacheEntry(value: Json, ttl: int)

  type Cache = map<string, CacheEntry>

  const CacheTtl: int := 30

  /** `order:${id}`. */
  function CacheKey(id: int): string {
    "order:" + IntToDecimal(id)
  }

  /** One completed call on the cache. */
  datatype CacheOp = CacheGet(key: string) | CacheSet(key: string, ttl: int)

  /** The awaited calls of `getOrderById` that can throw. */
  datatype ReadStep = AtFindByPk | AtCacheGet | AtFindJoined | AtCacheSet

  datatype ReadReply =
    | NotFound
    | Found(source: string, order: Json)
    | ReadFailed
  {
    function Status(): int {
      match this
      case NotFound => 400
      case Found(_, _) => 200
      case ReadFailed => 500
    }

    function Body(): Json {
      match this
      case NotFound => MessageBody("Order not found!")
      case Found(source, order) => Obj(map["source" := Str(source), "order" := order])
      case ReadFailed => MessageBody(InternalError)
    }
  }

  datatype Read = Read(cache: Cache, ops: seq<CacheOp>, reply: ReadReply)

  function DetailsJson(d: Option<OrderDetails>): Json {
    match d
    case None => Null
    case Some(details) => Obj(map["items" := details.items, "shipping" := details.shipping, "extra" := details.extra])
  }

  function CustomerJson(c: Option<Customer>): Json {
    match c
    case None => Null
    case Some(cust) =>
      Obj(map["id" := Num(cust.id), "name" := Str(cust.name), "email" := Str(cust.email), "phone" := Str(cust.phone)])
  }

  /** `order.toJSON()` of the order joined with its customer. */
  function OrderJson(o: Order, c: Option<Customer>): (j: Json)
    ensures j.Obj? && "id" in j.fields && j.fields["id"] == Num(o.id)
    ensures "status" in j.fields && j.fields["status"] == Str(o.status.Name())
    ensures "Customer" in j.fields && j.fields["Customer"] == CustomerJson(c)
    ensures j.fields.Keys == {"id", "customerId", "status", "orderDetails", "createdAt", "Customer"}
    ensures j.fields["customerId"] == Num(o.customerId) && j.fields["createdAt"] == Num(o.createdAt)
    ensures j.fields["orderDetails"] == DetailsJson(o.details)
  {
    Obj(map["id" := Num(o.id), "customerId" := Num(o.customerId), "status" := Str(o.status.Name()),
            "orderDetails" := DetailsJson(o.details), "createdAt" := Num(o.createdAt),
            "Customer" := CustomerJson(c)])
  }

  /** The snapshot a database read of order `id` produces. */
  function Snapshot(st: Store, id: int): Json
    requires id in st.orders
  {
    OrderJson(st.orders[id], FindCustomer(st, st.orders[id].customerId))
  }

  /**
   * `getOrderById`: 400 when there is no such order; otherwise the cached
   * snapshot if the key is present, else the joined row from the database,
   * which is then cached for 30 seconds. A throwing call gives the 500
   * reply. Expiry is not modelled: an entry stays until replaced.
   */
  function GetOrderById(st: Store, cache: Cache, id: int, fault: Option<ReadStep>): (r: Read)
    ensures forall k | k != CacheKey(id) :: (k in r.cache <==> k in cache) && (k in cache ==> r.cache[k] == cache[k])
    ensures fault != Some(AtFindByPk) && id !in st.orders ==> r.reply == NotFound && r.ops == [] && r.cache == cache
    ensures fault.None? ==> (r.reply.Status() == 400 <==> id !in st.orders)
    ensures r.reply.ReadFailed? <==> (fault.Some? && (fault.value.AtFindByPk? || id in st.orders)
                                      && (CacheKey(id) in cache ==> fault.value.AtFindByPk? || fault.value.AtCacheGet?))
    ensures r.reply.Found? && r.reply.source == "cache" ==>
      CacheKey(id) in cache && r.reply.order == cache[CacheKey(id)].value && r.cache == cache
      && r.ops == [CacheGet(CacheKey(id))]
    ensures r.reply.Found? && r.reply.source != "cache" ==>
      && r.reply.source == "db" && id in st.orders && CacheKey(id) !in cache
      && r.reply.order == Snapshot(st, id)
      && r.cache == cache[CacheKey(id) := CacheEntry(Snapshot(st, id), CacheTtl)]
      && r.ops == [CacheGet(CacheKey(id)), CacheSet(CacheKey(id), CacheTtl)]
    ensures r.reply.Found? <==>
      id in st.orders && (fault.None? || (CacheKey(id) in cache && (fault.value.AtFindJoined? || fault.value.AtCacheSet?)))
    ensures r.reply.NotFound? ==>
      r.reply.Status() == 400 && r.reply.Body() == Obj(map["message" := Str("Order not found!")])
    ensures r.reply.Found? ==>
      r.reply.Status() == 200 && r.reply.Body() == Obj(map["source" := Str(r.reply.source), "order" := r.reply.order])
    ensures r.reply.ReadFailed? ==> r.cache == cache && r.ops <= [CacheGet(CacheKey(id))]
    ensures r.reply.ReadFailed? ==>
      r.reply.Status() == 500 && r.reply.Body() == Obj(map["message" := Str("Internal Server Error!")])
  {
    if fault.Some? && fault.value.AtFindByPk? then Read(cache, [], ReadFailed)
    else if id !in st.orders then Read(cache, [], NotFound)
    else
      var key := CacheKey(id);
      if fault.Some? && fault.value.AtCacheGet? then Read(cache, [], ReadFailed)
      else if key in cache then Read(cache, [CacheGet(key)], Found("cache", cache[key].value))
      else if fault.Some? && fault.value.AtFindJoined? then Read(cache, [CacheGet(key)], ReadFailed)
      else
        var result := Snapshot(st, id);
        if fault.Some? && fault.value.AtCacheSet? then Read(cache, [CacheGet(key)], ReadFailed)
        else
          Read(cache[key := CacheEntry(result, CacheTtl)], [CacheGet(key), CacheSet(key, CacheTtl)], Found("db", result))
  }

  /** Distinct ids use distinct cache keys. */
  lemma CacheKeyInjective(a: int, b: int)
    requires CacheKey(a) == CacheKey(b)
    ensures a == b
  {
    assert CacheKey(a)[6..] == IntToDecimal(a);
    assert CacheKey(b)[6..] == IntToDecimal(b);
    IntToDecimalInjective(a, b);
  }

  /** Reading one order never disturbs the cached snapshot of another. */
  lemma ReadIsolated(st: Store, cache: Cache, id: int, other: int, fault: Option<ReadStep>)
    requires other != id && CacheKey(other) in cache
    ensures var r := GetOrderById(st, cache, id, fault);
      CacheKey(other) in r.cache && r.cache[CacheKey(other)] == cache[CacheKey(other)]
  {
    if CacheKey(other) == CacheKey(id) {
      CacheKeyInjective(other, id);
    }
  }

  /** A miss caches the snapshot, and the next read of that order is served from it. */
  lemma MissThenHit(st: Store, st': Store, cache: Cache, id: int)
    requires id in st.orders && id in st'.orders && CacheKey(id) !in cache
    ensures var first := GetOrderById(st, cache, id, None);
            var second := GetOrderById(st', first.cache, id, None);
      && first.reply == Found("db", Snapshot(st, id))
      && second.reply == Found("cache", Snapshot(st, id))
      && second.cache == first.cache
  {
  }

  /**
   * While an order's snapshot is cached, the reply does not depend on the
   * order's current row: a status written since (by the worker, say) is not
   * seen.
   */
  lemma CachedReadIgnoresStore(st1: Store, st2: Store, cache: Cache, id: int, fault: Option<ReadStep>)
    requires id in st1.orders && id in st2.orders && CacheKey(id) in cache
    ensures GetOrderById(st1, cache, id, fault) == GetOrderById(st2, cache, id, fault)
  {
  }

  // ---------------------------------------------------------------------
  // Search.

  const ValidStatuses: seq<string> := ["pending", "processing", "completed", "failed"]

  /** The valid status words are exactly the spellings of the status enum. */
  lemma ValidStatusesAreNames(w: string)
    ensures w in ValidStatuses <==> exists i | 0 <= i < |AllStatuses| :: AllStatuses[i].Name() == w
  {
    if w in ValidStatuses {
      var i :| 0 <= i < |ValidStatuses| && ValidStatuses[i] == w;
      assert AllStatuses[i].Name() == w;
    }
  }

  /** `input?.trim().toLowerCase() || ""`; None when `input` has no `trim` (a TypeError). */
  function Lowered(input: Json): (r: Option<string>)
    ensures r.None? <==> !Nullish(input) && !input.Str?
    ensures Nullish(input) ==> r == Some("")
    ensures input.Str? ==> r == Some(ToLower(Trim(input.s)))
  {
    match input
    case Undefined => Some("")
    case Null => Some("")
    case Str(s) => Some(ToLower(Trim(s)))
    case _ => None
  }

  /** The arguments `orderSearch` passes to `searchOrders`. */
  datatype SearchArgs = SearchArgs(text: Json, status: Option<string>, from: int, size: int)

  /**
   * `orderSearch`'s request shaping: the raw input as the text, the status
   * word if the trimmed lower-cased input is one, and the page window
   * (`page` defaults to 1, `size` to 10). None when `input` is neither a
   * string nor nullish.
   */
  function SearchRequest(input: Json, page: Option<int>, size: Option<int>): (r: Option<SearchArgs>)
    ensures r.None? <==> Lowered(input).None?
    ensures r.Some? ==>
      && r.value.text == input
      && r.value.size == size.GetOr(10)
      && r.value.from == (page.GetOr(1) - 1) * size.GetOr(10)
    ensures r.Some? ==> (r.value.status.Some? <==> Lowered(input).value in ValidStatuses)
    ensures r.Some? && r.value.status.Some? ==> r.value.status.value == Lowered(input).value
  {
    match Lowered(input)
    case None => None
    case Some(lowered) =>
      var status := if lowered in ValidStatuses then Some(lowered) else None;
      Some(SearchArgs(input, status, (page.GetOr(1) - 1) * size.GetOr(10), size.GetOr(10)))
  }

  /** Without `page` and `size` the window is the first ten hits. */
  lemma DefaultWindow(input: Json)
    requires Lowered(input).Some?
    ensures SearchRequest(input, None, None).value.from == 0
    ensures SearchRequest(input, None, None).value.size == 10
  {
  }

  /** A status word is detected exactly when the trimmed, lower-cased input spells a status. */
  lemma StatusDetectedIff(s: string, page: Option<int>, size: Option<int>)
    ensures var args := SearchRequest(Str(s), page, size).value;
      args.status.Some? <==> exists i | 0 <= i < |AllStatuses| :: AllStatuses[i].Name() == ToLower(Trim(s))
  {
    ValidStatusesAreNames(ToLower(Trim(s)));
  }

  /** Every status is spelled with lower-case letters, and so is a valid status word. */
  lemma NameIsLowerWord(status: Status)
    ensures status.Name() != [] && IsLowerWord(status.Name()) && status.Name() in ValidStatuses
  {
  }

  /** An upper-cased word of letters has no whitespace at its ends. */
  lemma UpperWordTrimmed(w: string)
    requires w != [] && IsLowerWord(w)
    ensures Trimmed(ToUpper(w))
  {
    var u := ToUpper(w);
    assert 'A' <= u[0] <= 'Z';
    assert 'A' <= u[|u| - 1] <= 'Z';
  }

  /** The status words are already lower case. */
  lemma LowerIdempotent(w: string)
    requires IsLowerWord(w)
    ensures ToLower(w) == w
  {
    assert forall i | 0 <= i < |w| :: ToLower(w)[i] == w[i];
  }

  lemma {:induction false} LoweredPadded(p: string, q: string, status: Status)
    requires AllWhitespace(p) && AllWhitespace(q)
    ensures Lowered(Str(p + ToUpper(status.Name()) + q)) == Some(status.Name())
  {
    var w := status.Name();
    NameIsLowerWord(status);
    UpperWordTrimmed(w);
    TrimPadded(p, ToUpper(w), q);
    LowerUpper(w);
  }

  /** Surrounding whitespace and upper case do not hide a status word; the text still goes out as typed. */
  lemma {:induction false} PaddedStatusWord(p: string, q: string, status: Status, page: Option<int>, size: Option<int>)
    requires AllWhitespace(p) && AllWhitespace(q)
    ensures var typed := p + ToUpper(status.Name()) + q;
            var args := SearchRequest(Str(typed), page, size).value;
      args.status == Some(status.Name()) && args.text == Str(typed)
  {
    LoweredPadded(p, q, status);
    NameIsLowerWord(status);
  }

  /**
   * A detected status does not replace the text: the query carries both
   * the free-text clause over the raw input and the status term.
   */
  lemma {:induction false} StatusAndTextBothSent(s: string, status: Status, page: Option<int>, size: Option<int>)
    requires ToLower(Trim(s)) == status.Name()
    ensures var args := SearchRequest(Str(s), page, size).value;
      BuildQuery(args.text, args.status, args.from, args.size).must
        == [MultiMatch(Str(s), TextFields), Term("status", status.Name())]
  {
    NameIsLowerWord(status);
    var args := SearchRequest(Str(s), page, size).value;
    assert args.status == Some(status.Name()) && args.text == Str(s);
    BothClauses(Str(s), status.Name(), args.from, args.size);
  }

  /** A truthy text and a lower-case status word give the text clause, then the status term. */
  lemma BothClauses(text: Json, w: string, from: int, size: int)
    requires Truthy(text) && w != [] && IsLowerWord(w)
    ensures BuildQuery(text, Some(w), from, size).must == [MultiMatch(text, TextFields), Term("status", w)]
  {
    LowerIdempotent(w);
  }


  datatype SearchReply = Results(docs: seq<SearchDoc>) | SearchFailed {
    function Status(): int {
      if Results? then 200 else 500
    }
  }

  /** `orderSearch`: shape the request and return `{ results }`, or 500 when shaping or the engine throws. */
  function OrderSearch(input: Json, page: Option<int>, size: Option<int>,
                       engine: Query -> Option<seq<Hit>>): (r: SearchReply)
    ensures r.Results? <==> SearchRequest(input, page, size).Some?
                            && var a := SearchRequest(input, page, size).value;
                               engine(BuildQuery(a.text, a.status, a.from, a.size)).Some?
    ensures r.Results? ==>
      var a := SearchRequest(input, page, size).value;
      var hits := engine(BuildQuery(a.text, a.status, a.from, a.size)).value;
      |r.docs| == |hits| && forall i | 0 <= i < |hits| :: r.docs[i] == hits[i].source
  {
    match SearchRequest(input, page, size)
    case None => SearchFailed
    case Some(a) =>
      match SearchOrders(a.text, a.status, a.from, a.size, engine)
      case None => SearchFailed
      case Some(docs) => Results(docs)
  }
}

=== FILE: json.dfy ===
/**
 * JavaScript values as they travel through request bodies, action payloads
 * and stored documents. Numbers are integers here: floating point is not part
 * of the model.
 */
module Json {
  import opened Wrappers

  datatype Json =
    | Undefined
    | Null
    | Bool(b: bool)
    | Num(n: int)
    | Str(s: string)
    | Arr(elems: seq<Json>)
    | Obj(fields: map<string, Json>)

  /** `undefined` or `null`. */
  predicate Nullish(j: Json) {
    j.Undefined? || j.Null?
  }

  /** JavaScript's ToBoolean: what `if (j)` and `j || x` test. */
  predicate Truthy(j: Json) {
    match j
    case Undefined => false
    case Null => false
    case Bool(b) => b
    case Num(n) => n != 0
    case Str(s) => s != ""
    case Arr(_) => true
    case Obj(_) => true
  }

  /**
   * `j.key` for the data keys the core reads (`order`, `error`): a TypeError
   * (None) on a nullish value, the field on an object, and `undefined` for an
   * absent field or a primitive. Prototype properties such as `length` are
   * not modelled.
   */
  function Get(j: Json, key: string): (r: Option<Json>)
    ensures r.None? <==> Nullish(j)
    ensures j.Obj? && key in j.fields ==> r == Some(j.fields[key])
    ensures j.Obj? && key !in j.fields ==> r == Some(Undefined)
  {
    match j
    case Undefined => None
    case Null => None
    case Obj(fields) => Some(if key in fields then fields[key] else Undefined)
    case _ => Some(Undefined)
  }

  /** `j?.key`: like `Get`, but a nullish `j` gives `undefined` instead of throwing. */
  function OptGet(j: Json, key: string): (r: Json)
    ensures Nullish(j) ==> r.Undefined?
    ensures !Nullish(j) ==> Some(r) == Get(j, key)
  {
    Get(j, key).GetOr(Undefined)
  }

  /** `a || b`. */
  function Or(a: Json, b: Json): (r: Json)
    ensures Truthy(a) ==> r == a
    ensures !Truthy(a) ==> r == b
  {
    if Truthy(a) then a else b
  }
}

=== FILE: orders_slice.dfy ===
/**
 * The client's `orders` state slice: three request life cycles (create,
 * fetch by id, search), each with pending / fulfilled / rejected actions,
 * plus `clearCreateResult`. Fetch and search share one `loading` flag.
 */
module OrdersSlice {
  import opened Wrappers
  import opened Json

  datatype OrdersState = OrdersState(
    creating: bool,
    createResult: Json,
    currentOrder: Json,
    searchResults: Json,
    loading: bool,
    error: Json)

  const Initial: OrdersState := OrdersState(false, Null, Null, Null, false, Null)

  datatype Action =
    | ClearCreateResult
    | CreatePending
    | CreateFulfilled(payload: Json)
    | CreateRejected(error: Json)
    | FetchPending
    | FetchFulfilled(payload: Json)
    | FetchRejected(error: Json)
    | SearchPending
    | SearchFulfilled(payload: Json)
    | SearchRejected(error: Json)
    | Unrelated
  {
    predicate IsPending() { CreatePending? || FetchPending? || SearchPending? }
    predicate IsRejected() { CreateRejected? || FetchRejected? || SearchRejected? }
  }

  /**
   * The reducer. None when it throws: `fetchOrderById.fulfilled` reads
   * `payload.order`, which throws on a nullish payload.
   */
  function Reduce(s: OrdersState, a: Action): (r: Option<OrdersState>)
    ensures r.None? <==> a.FetchFulfilled? && Nullish(a.payload)
    ensures r.Some? && a.IsPending() ==> r.value.error == Null
    ensures r.Some? && a.IsRejected() ==>
      && r.value.error == a.error
      && r.value.createResult == s.createResult
      && r.value.currentOrder == s.currentOrder
      && r.value.searchResults == s.searchResults
    ensures r.Some? && a.CreatePending? ==> r.value.creating && r.value.loading == s.loading
    ensures r.Some? && (a.FetchPending? || a.SearchPending?) ==> r.value.loading && r.value.creating == s.creating
    ensures r.Some? && (a.CreateFulfilled? || a.CreateRejected?) ==> !r.value.creating && r.value.loading == s.loading
    ensures r.Some? && (a.FetchFulfilled? || a.FetchRejected? || a.SearchFulfilled? || a.SearchRejected?) ==>
      !r.value.loading && r.value.creating == s.creating
    ensures r.Some? && a.CreateFulfilled? ==> r.value.createResult == a.payload
    ensures r.Some? && a.FetchFulfilled? ==> Some(r.value.currentOrder) == Get(a.payload, "order")
    ensures r.Some? && a.SearchFulfilled? ==> r.value.searchResults == a.payload
    ensures a.ClearCreateResult? ==> r == Some(s.(createResult := Null))
    ensures r.Some? && !a.CreateFulfilled? && !a.ClearCreateResult? ==> r.value.createResult == s.createResult
    ensures r.Some? && !a.FetchFulfilled? ==> r.value.currentOrder == s.currentOrder
    ensures r.Some? && !a.SearchFulfilled? ==> r.value.searchResults == s.searchResults
    ensures r.Some? && !a.IsPending() && !a.IsRejected() ==> r.value.error == s.error
    ensures a.Unrelated? ==> r == Some(s)
  {
    match a
    case ClearCreateResult => Some(s.(createResult := Null))
    case CreatePending => Some(s.(creating := true, error := Null))
    case CreateFulfilled(p) => Some(s.(creating := false, createResult := p))
    case CreateRejected(e) => Some(s.(creating := false, error := e))
    case FetchPending => Some(s.(loading := true, error := Null))
    case FetchFulfilled(p) =>
      (match Get(p, "order")
       case None => None
       case Some(order) => Some(s.(loading := false, currentOrder := order)))
    case FetchRejected(e) => Some(s.(loading := false, error := e))
    case SearchPending => Some(s.(loading := true, error := Null))
    case SearchFulfilled(p) => Some(s.(loading := false, searchResults := p))
    case SearchRejected(e) => Some(s.(loading := false, error := e))
    case Unrelated => Some(s)
  }

  /** `dispatch`: a throwing reducer leaves the state as it was. */
  function Dispatch(s: OrdersState, a: Action): (r: OrdersState)
    ensures a.FetchFulfilled? && Nullish(a.payload) ==> r == s
    ensures !(a.FetchFulfilled? && Nullish(a.payload)) ==> Some(r) == Reduce(s, a)
  {
    Reduce(s, a).GetOr(s)
  }

  /** The state after dispatching `acts` in order. */
  function Fold(s: OrdersState, acts: seq<Action>): OrdersState
    decreases |acts|
  {
    if acts == [] then s else Dispatch(Fold(s, acts[..|acts| - 1]), acts[|acts| - 1])
  }

  /** The initial state: nothing busy, no results, no error. */
  lemma InitialIsIdle()
    ensures !Initial.creating && !Initial.loading
    ensures Initial.createResult == Null && Initial.currentOrder == Null && Initial.searchResults == Null
    ensures Initial.error == Null
  {
  }

  // Reference descriptions of single fields, read off the action history.

  /** The error after `acts`: cleared by the last pending, set by the last rejection, else as it started. */
  function LastError(init: Json, acts: seq<Action>): Json
    decreases |acts|
  {
    if acts == [] then init
    else
      var a := acts[|acts| - 1];
      if a.IsPending() then Null
      else if a.IsRejected() then a.error
      else LastError(init, acts[..|acts| - 1])
  }

  /** `creating` is true exactly when the last create event was its pending action. */
  function LastCreating(init: bool, acts: seq<Action>): bool
    decreases |acts|
  {
    if acts == [] then init
    else
      var a := acts[|acts| - 1];
      if a.CreatePending? then true
      else if a.CreateFulfilled? || a.CreateRejected? then false
      else LastCreating(init, acts[..|acts| - 1])
  }

  /**
   * `loading` is true exactly when the last fetch-or-search event was a
   * pending one, whichever request it belonged to. A fulfilled fetch whose
   * payload is nullish throws and so is not an event.
   */
  function LastLoading(init: bool, acts: seq<Action>): bool
    decreases |acts|
  {
    if acts == [] then init
    else
      var a := acts[|acts| - 1];
      if a.FetchPending? || a.SearchPending? then true
      else if (a.FetchFulfilled? && !Nullish(a.payload)) || a.FetchRejected? || a.SearchFulfilled? || a.SearchRejected? then false
      else LastLoading(init, acts[..|acts| - 1])
  }

  lemma {:induction false} ErrorFollowsLastRequestEvent(s: OrdersState, acts: seq<Action>)
    ensures Fold(s, acts).error == LastError(s.error, acts)
    decreases |acts|
  {
    if acts != [] {
      ErrorFollowsLastRequestEvent(s, acts[..|acts| - 1]);
    }
  }

  lemma {:induction false} CreatingFollowsLastCreateEvent(s: OrdersState, acts: seq<Action>)
    ensures Fold(s, acts).creating == LastCreating(s.creating, acts)
    decreases |acts|
  {
    if acts != [] {
      CreatingFollowsLastCreateEvent(s, acts[..|acts| - 1]);
    }
  }

  lemma {:induction false} LoadingFollowsLastLoadEvent(s: OrdersState, acts: seq<Action>)
    ensures Fold(s, acts).loading == LastLoading(s.loading, acts)
    decreases |acts|
  {
    if acts != [] {
      LoadingFollowsLastLoadEvent(s, acts[..|acts| - 1]);
    }
  }

  /**
   * Result fields change only through their own fulfilled action (and
   * `clearCreateResult`): a history without them leaves all three as they were.
   */
  lemma {:induction false} ResultsNeedFulfilment(s: OrdersState, acts: seq<Action>)
    requires forall i | 0 <= i < |acts| ::
      !acts[i].CreateFulfilled? && !acts[i].FetchFulfilled? && !acts[i].SearchFulfilled? && !acts[i].ClearCreateResult?
    ensures Fold(s, acts).createResult == s.createResult
    ensures Fold(s, acts).currentOrder == s.currentOrder
    ensures Fold(s, acts).searchResults == s.searchResults
    decreases |acts|
  {
    if acts != [] {
      ResultsNeedFulfilment(s, acts[..|acts| - 1]);
    }
  }

  /**
   * Fetch and search share `loading`: a search that completes while a fetch
   * is still outstanding turns the indicator off.
   */
  lemma SharedLoadingFlag(s: OrdersState, results: Json)
    ensures Fold(s, [FetchPending, SearchPending, SearchFulfilled(results)]).loading == false
  {
    LoadingFollowsLastLoadEvent(s, [FetchPending, SearchPending, SearchFulfilled(results)]);
  }
}

=== FILE: report_slice.dfy ===
/**
 * The client's `report` state slice: one request life cycle whose rejection
 * stores a fixed message that nothing ever clears.
 */
module ReportSlice {
  import opened Wrappers
  import opened Json

  datatype ReportState = ReportState(loading: bool, data: Json, error: Option<string>)

  const Initial: ReportState := ReportState(false, Null, None)

  const LoadFailed: string := "Failed to load report"

  datatype Action = Pending | Fulfilled(payload: Json) | Rejected | Unrelated

  function Reduce(s: ReportState, a: Action): (r: ReportState)
    ensures a.Pending? ==> r.loading && r.data == s.data && r.error == s.error
    ensures a.Fulfilled? ==> !r.loading && r.data == a.payload && r.error == s.error
    ensures a.Rejected? ==> !r.loading && r.data == s.data && r.error == Some(LoadFailed)
    ensures a.Unrelated? ==> r == s
  {
    match a
    case Pending => s.(loading := true)
    case Fulfilled(p) => s.(loading := false, data := p)
    case Rejected => s.(loading := false, error := Some(LoadFailed))
    case Unrelated => s
  }

  function Fold(s: ReportState, acts: seq<Action>): ReportState
    decreases |acts|
  {
    if acts == [] then s else Reduce(Fold(s, acts[..|acts| - 1]), acts[|acts| - 1])
  }

  lemma InitialIsIdle()
    ensures !Initial.loading && Initial.data == Null && Initial.error.None?
  {
  }

  /**
   * No case resets `error`: after any history it is set exactly when it
   * started set or some request was rejected, and then it holds the
   * rejection message (or what it started with).
   */
  lemma {:induction false} ErrorIsSticky(s: ReportState, acts: seq<Action>)
    ensures Fold(s, acts).error.Some? <==> s.error.Some? || exists i | 0 <= i < |acts| :: acts[i].Rejected?
    ensures (exists i | 0 <= i < |acts| :: acts[i].Rejected?) ==> Fold(s, acts).error == Some(LoadFailed)
    ensures (forall i | 0 <= i < |acts| :: !acts[i].Rejected?) ==> Fold(s, acts).error == s.error
    decreases |acts|
  {
    if acts != [] {
      var init := acts[..|acts| - 1];
      ErrorIsSticky(s, init);
      if exists i | 0 <= i < |init| :: init[i].Rejected? {
        var i :| 0 <= i < |init| && init[i].Rejected?;
        assert acts[i].Rejected?;
      }
      if exists i | 0 <= i < |acts| :: acts[i].Rejected? {
        var i :| 0 <= i < |acts| && acts[i].Rejected?;
        if i < |init| {
          assert init[i].Rejected?;
        }
      }
    }
  }

  /** A successful load after a failure shows the data but keeps the failure message. */
  lemma RecoveryKeepsError(s: ReportState, report: Json)
    ensures var r := Fold(s, [Pending, Rejected, Pending, Fulfilled(report)]);
      !r.loading && r.data == report && r.error == Some(LoadFailed)
  {
    ErrorIsSticky(s, [Pending, Rejected, Pending, Fulfilled(report)]);
    assert [Pending, Rejected, Pending, Fulfilled(report)][1].Rejected?;
  }
}

=== FILE: search.dfy ===
/**
 * The search-index side of the core: the document `indexOrder` writes for an
 * order, and the boolean query `searchOrders` sends. The engine itself
 * (analysis, relevance, ranking) is a parameter.
 */
module Search {
  import opened Wrappers
  import opened Json
  import opened Text
  import opened Store

  /** The denormalised projection of an order that the index holds. */
  datatype SearchDoc = SearchDoc(
    orderId: int,
    customerId: int,
    customerName: Option<string>,
    status: string,
    items: Json,
    createdAt: int)

  /** Documents by id; a write replaces the whole document. */
  type Index = map<string, SearchDoc>

  /** The document id: `String(order.id)`. */
  function DocKey(orderId: int): string {
    IntToDecimal(orderId)
  }

  /**
   * The body `indexOrder` builds; None when the order's details column is
   * null, so that reading `.items` throws.
   */
  function Project(order: Order, customer: Option<Customer>): (r: Option<SearchDoc>)
    ensures r.Some? <==> order.details.Some?
    ensures r.Some? ==>
      && r.value.orderId == order.id
      && r.value.customerId == order.customerId
      && r.value.status == order.status.Name()
      && r.value.createdAt == order.createdAt
    ensures r.Some? ==> r.value.customerName == (if customer.Some? then Some(customer.value.name) else None)
    ensures r.Some? && Truthy(order.details.value.items) ==> r.value.items == order.details.value.items
    ensures r.Some? && !Truthy(order.details.value.items) ==> r.value.items == Arr([])
  {
    match order.details
    case None => None
    case Some(details) =>
      Some(SearchDoc(
        order.id,
        order.customerId,
        match customer case Some(c) => Some(c.name) case None => None,
        order.status.Name(),
        Or(details.items, Arr([])),
        order.createdAt))
  }

  /**
   * `indexOrder(order, customer)`: writes the projection under the order's
   * key. It never throws: an unreachable engine (`engineUp` false) or a
   * failed projection is swallowed and the index stays as it was.
   */
  function IndexOrder(index: Index, order: Order, customer: Option<Customer>, engineUp: bool): (r: Index)
    ensures r.Keys <= index.Keys + {DocKey(order.id)}
    ensures forall k | k in index && k != DocKey(order.id) :: k in r && r[k] == index[k]
    ensures engineUp && order.details.Some? ==>
      DocKey(order.id) in r && Some(r[DocKey(order.id)]) == Project(order, customer)
    ensures !engineUp || order.details.None? ==> r == index
  {
    if !engineUp then index
    else
      match Project(order, customer)
      case None => index
      case Some(doc) => index[DocKey(order.id) := doc]
  }

  /** Writing one order's document never disturbs the document of an order with another id. */
  lemma IndexOrderIsolated(index: Index, a: Order, ca: Option<Customer>, b: Order, cb: Option<Customer>, up: bool)
    requires a.id != b.id
    requires DocKey(a.id) in index
    ensures var r := IndexOrder(index, b, cb, up);
      DocKey(a.id) in r && r[DocKey(a.id)] == index[DocKey(a.id)]
  {
    if DocKey(a.id) == DocKey(b.id) {
      IntToDecimalInjective(a.id, b.id);
    }
  }

  datatype Clause =
    | MultiMatch(query: Json, fields: seq<string>)
    | Term(field: string, value: string)

  datatype Query = Query(from: int, size: int, must: seq<Clause>)

  /** The fields the free-text clause searches, customer name boosted twice. */
  const TextFields: seq<string> := ["customerName^2", "items.name", "orderId"]

  /** `query.status` is truthy: present and not the empty string. */
  predicate StatusGiven(status: Option<string>) {
    status.Some? && status.value != ""
  }

  /** The query `searchOrders(query, from, size)` sends: a `bool.must` list of clauses. */
  function BuildQuery(text: Json, status: Option<string>, from: int, size: int): (q: Query)
    ensures q.from == from && q.size == size
    ensures (exists i | 0 <= i < |q.must| :: q.must[i].MultiMatch?) <==> Truthy(text)
    ensures (exists i | 0 <= i < |q.must| :: q.must[i].Term?) <==> StatusGiven(status)
    ensures forall i | 0 <= i < |q.must| && q.must[i].MultiMatch? :: q.must[i] == MultiMatch(text, TextFields)
    ensures forall i | 0 <= i < |q.must| && q.must[i].Term? ::
      StatusGiven(status) && q.must[i] == Term("status", ToLower(status.value))
    ensures forall i, j | 0 <= i < j < |q.must| :: q.must[i].MultiMatch? && q.must[j].Term?
    ensures !Truthy(text) && !StatusGiven(status) ==> q.must == []
  {
    var textClauses := if Truthy(text) then [MultiMatch(text, TextFields)] else [];
    var statusClauses := if StatusGiven(status) then [Term("status", ToLower(status.value))] else [];
    var must := textClauses + statusClauses;
    assert Truthy(text) ==> must[0].MultiMatch?;
    assert StatusGiven(status) ==> must[|must| - 1].Term?;
    Query(from, size, must)
  }

  /** One hit of a search response. */
  datatype Hit = Hit(id: string, source: SearchDoc)

  /** `hits.map((h) => h._source)`. */
  function Sources(hits: seq<Hit>): (r: seq<SearchDoc>)
    ensures |r| == |hits|
    ensures forall i | 0 <= i < |hits| :: r[i] == hits[i].source
  {
    if hits == [] then [] else [hits[0].source] + Sources(hits[1..])
  }

  /**
   * `searchOrders(query, from, size)`. The engine answers a query with its
   * hits, or None when the call throws, which propagates to the caller.
   */
  function SearchOrders(text: Json, status: Option<string>, from: int, size: int,
                        engine: Query -> Option<seq<Hit>>): (r: Option<seq<SearchDoc>>)
    ensures var hits := engine(BuildQuery(text, status, from, size));
      && (r.Some? <==> hits.Some?)
      && (r.Some? ==> |r.value| == |hits.value|
                      && forall i | 0 <= i < |r.value| :: r.value[i] == hits.value[i].source)
  {
    match engine(BuildQuery(text, status, from, size))
    case None => None
    case Some(hits) => Some(Sources(hits))
  }
}

=== FILE: store.dfy ===
/**
 * The relational order store: customers, orders and the append-only
 * processing log, with the handful of calls the core makes on it.
 * Row ids are auto-increment counters; the email column is unique, which
 * the store keeps as an index from email to customer id.
 */
module Store {
  import opened Wrappers
  import opened Json

  /** The order status enum, in declaration order. */
  datatype Status = Pending | Processing | Completed | Failed {
    function Name(): (r: string)
      ensures r != []
    {
      match this
      case Pending => "pending"
      case Processing => "processing"
      case Completed => "completed"
      case Failed => "failed"
    }

    predicate Terminal() {
      Completed? || Failed?
    }
  }

  const AllStatuses: seq<Status> := [Pending, Processing, Completed, Failed]

  datatype Customer = Customer(id: int, name: string, email: string, phone: string)

  /** The document column: the submitted items, shipping and extra fields as given. */
  datatype OrderDetails = OrderDetails(items: Json, shipping: Json, extra: Json)

  /** `details` is None when the (nullable) JSON column holds NULL. */
  datatype Order = Order(id: int, customerId: int, status: Status, details: Option<OrderDetails>, createdAt: int)

  datatype LogStep = Validation | Payment | Invoice | WorkerStep {
    function Name(): string {
      match this
      case Validation => "validation"
      case Payment => "payment"
      case Invoice => "invoice"
      case WorkerStep => "worker"
    }
  }

  datatype LogStatus = Success | InProgress | Error {
    function Name(): string {
      match this
      case Success => "success"
      case InProgress => "processing"
      case Error => "error"
    }
  }

  /** One processing-log row. The table keeps no update timestamp: rows are never changed. */
  datatype LogEntry = LogEntry(orderId: int, step: LogStep, status: LogStatus, message: string)

  datatype Store = Store(
    customers: map<int, Customer>,
    byEmail: map<string, int>,
    orders: map<int, Order>,
    log: seq<LogEntry>,
    nextCustomerId: int,
    nextOrderId: int)

  /** The store's integrity: rows sit under their own ids, ids lie below the counters, and `byEmail` is exactly the unique email index. */
  ghost predicate Valid(st: Store) {
    && 1 <= st.nextCustomerId
    && 1 <= st.nextOrderId
    && (forall id | id in st.customers ::
          && st.customers[id].id == id
          && 1 <= id < st.nextCustomerId
          && st.customers[id].email in st.byEmail
          && st.byEmail[st.customers[id].email] == id)
    && (forall e | e in st.byEmail :: st.byEmail[e] in st.customers && st.customers[st.byEmail[e]].email == e)
    && (forall id | id in st.orders :: st.orders[id].id == id && 1 <= id < st.nextOrderId)
  }

  /** In a valid store no two customers share an email. */
  lemma EmailsUnique(st: Store, a: int, b: int)
    requires Valid(st)
    requires a in st.customers && b in st.customers
    requires st.customers[a].email == st.customers[b].email
    ensures a == b
  {
  }

  /** `Customer.findOne({ where: { email } })`. */
  function FindCustomerByEmail(st: Store, email: string): (r: Option<Customer>)
    ensures r.Some? ==> r.value.email == email && r.value in st.customers.Values
    ensures Valid(st) && r.Some? ==> r.value.id in st.customers && st.customers[r.value.id] == r.value
    ensures Valid(st) ==> (r.None? <==> forall id | id in st.customers :: st.customers[id].email != email)
  {
    if email in st.byEmail && st.byEmail[email] in st.customers
       && st.customers[st.byEmail[email]].email == email
    then
      var id := st.byEmail[email];
      assert Valid(st) ==> st.customers[id].id == id;
      Some(st.customers[id])
    else None
  }

  /** `Customer.findByPk(id)`. */
  function FindCustomer(st: Store, id: int): (r: Option<Customer>)
    ensures r.Some? <==> id in st.customers
    ensures r.Some? ==> r.value == st.customers[id]
  {
    if id in st.customers then Some(st.customers[id]) else None
  }

  /** `Order.findByPk(id)`. */
  function FindOrder(st: Store, id: int): (r: Option<Order>)
    ensures r.Some? <==> id in st.orders
    ensures r.Some? ==> r.value == st.orders[id]
  {
    if id in st.orders then Some(st.orders[id]) else None
  }

  /**
   * `Customer.create(...)`: a new row under the next id; None when the
   * unique email constraint rejects it.
   */
  function InsertCustomer(st: Store, name: string, email: string, phone: string): (r: Option<(Store, Customer)>)
    ensures r.None? <==> email in st.byEmail
    ensures r.Some? ==> var (st', c) := r.value;
      && c == Customer(st.nextCustomerId, name, email, phone)
      && st'.customers == st.customers[c.id := c]
      && st'.byEmail == st.byEmail[email := c.id]
      && st'.nextCustomerId == st.nextCustomerId + 1
      && st'.orders == st.orders && st'.log == st.log && st'.nextOrderId == st.nextOrderId
    ensures Valid(st) && r.Some? ==> Valid(r.value.0) && r.value.1.id !in st.customers
  {
    if email in st.byEmail then None
    else
      var c := Customer(st.nextCustomerId, name, email, phone);
      Some((st.(customers := st.customers[c.id := c],
                byEmail := st.byEmail[email := c.id],
                nextCustomerId := st.nextCustomerId + 1), c))
  }

  /** `Order.create(...)`: a new row under the next id with the given fields. */
  function InsertOrder(st: Store, customerId: int, status: Status, details: OrderDetails, now: int): (r: (Store, Order))
    ensures var (st', o) := r;
      && o == Order(st.nextOrderId, customerId, status, Some(details), now)
      && st'.orders == st.orders[o.id := o]
      && st'.nextOrderId == st.nextOrderId + 1
      && st'.customers == st.customers && st'.byEmail == st.byEmail
      && st'.log == st.log && st'.nextCustomerId == st.nextCustomerId
    ensures Valid(st) ==> Valid(r.0) && r.1.id !in st.orders
  {
    var o := Order(st.nextOrderId, customerId, status, Some(details), now);
    (st.(orders := st.orders[o.id := o], nextOrderId := st.nextOrderId + 1), o)
  }

  /** `OrderProcessingLog.create(...)`: the row goes at the end; nothing else moves. */
  function AppendLog(st: Store, e: LogEntry): (st': Store)
    ensures st'.log == st.log + [e]
    ensures st' == st.(log := st'.log)
    ensures Valid(st) ==> Valid(st')
  {
    st.(log := st.log + [e])
  }

  /**
   * `Order.update({ status }, { where: { id } })`: rewrites the status of the
   * matching row, and matches nothing (no error) when there is no such row.
   */
  function UpdateStatus(st: Store, id: int, s: Status): (st': Store)
    ensures st'.orders.Keys == st.orders.Keys
    ensures id in st.orders ==> st'.orders[id] == st.orders[id].(status := s)
    ensures forall k | k in st.orders && k != id :: st'.orders[k] == st.orders[k]
    ensures st' == st.(orders := st'.orders)
    ensures Valid(st) ==> Valid(st')
  {
    if id in st.orders then st.(orders := st.orders[id := st.orders[id].(status := s)]) else st
  }
}

=== FILE: text.dfy ===
/**
 * The string primitives the core leans on: `String.prototype.trim`,
 * `toLowerCase` (on ASCII letters) and `String(n)` for integer ids.
 */
module Text {

  /** The characters ECMAScript's `trim` removes: WhiteSpace and LineTerminator. */
  predicate IsWhitespace(c: char) {
    var n := c as int;
    || n == 0x09 || n == 0x0A || n == 0x0B || n == 0x0C || n == 0x0D
    || n == 0x20 || n == 0xA0 || n == 0x1680
    || (0x2000 <= n <= 0x200A)
    || n == 0x2028 || n == 0x2029 || n == 0x202F || n == 0x205F
    || n == 0x3000 || n == 0xFEFF
  }

  predicate AllWhitespace(s: string) {
    forall i | 0 <= i < |s| :: IsWhitespace(s[i])
  }

  /** No whitespace at either end. */
  predicate Trimmed(s: string) {
    s != [] ==> !IsWhitespace(s[0]) && !IsWhitespace(s[|s| - 1])
  }

  /** Drops the leading whitespace: the result is the suffix that starts at the first other character. */
  function TrimStart(s: string): (r: string)
    ensures |r| <= |s| && r == s[|s| - |r|..]
    ensures AllWhitespace(s[..|s| - |r|])
    ensures r != [] ==> !IsWhitespace(r[0])
  {
    if s != [] && IsWhitespace(s[0]) then TrimStart(s[1..]) else s
  }

  /** Drops the trailing whitespace: the result is the prefix that ends at the last other character. */
  function TrimEnd(s: string): (r: string)
    ensures |r| <= |s| && r == s[..|r|]
    ensures AllWhitespace(s[|r|..])
    ensures r != [] ==> !IsWhitespace(r[|r| - 1])
  {
    if s != [] && IsWhitespace(s[|s| - 1]) then TrimEnd(s[..|s| - 1]) else s
  }

  /** `s.trim()`. */
  function Trim(s: string): (r: string)
    ensures Trimmed(r)
    ensures |r| <= |s|
  {
    TrimEnd(TrimStart(s))
  }

  /**
   * `s.trim()` is the infix of `s` that starts after the `k` leading
   * whitespace characters and is followed by whitespace only.
   */
  lemma {:induction false} TrimIsInfix(s: string, k: int, r: string)
    requires k == |s| - |TrimStart(s)| && r == Trim(s)
    ensures 0 <= k && k + |r| <= |s|
    ensures r == s[k..k + |r|]
    ensures AllWhitespace(s[..k]) && AllWhitespace(s[k + |r|..])
  {
    TrimEndOfSuffix(s, k, TrimStart(s), r);
  }

  /** Trimming the end of the suffix of `s` from `k` leaves an infix of `s` followed by whitespace. */
  lemma {:induction false} TrimEndOfSuffix(s: string, k: int, rest: string, r: string)
    requires 0 <= k <= |s| && rest == s[k..] && r == TrimEnd(rest)
    ensures k + |r| <= |s|
    ensures r == s[k..k + |r|]
    ensures AllWhitespace(s[k + |r|..])
  {
    assert rest[|r|..] == s[k + |r|..];
  }

  /** Trimming removes exactly the whitespace padding around a trimmed word. */
  lemma {:induction false} TrimPadded(p: string, w: string, q: string)
    requires AllWhitespace(p) && AllWhitespace(q) && Trimmed(w)
    ensures Trim(p + w + q) == w
  {
    if w == [] {
      assert p + w + q == (p + q) + [];
      TrimStartPadded(p + q, []);
    } else {
      assert p + w + q == p + (w + q);
      TrimStartPadded(p, w + q);
      TrimEndPadded(w, q);
    }
  }

  lemma {:induction false} TrimStartPadded(p: string, rest: string)
    requires AllWhitespace(p)
    requires rest != [] ==> !IsWhitespace(rest[0])
    ensures TrimStart(p + rest) == rest
  {
    if p != [] {
      assert (p + rest)[1..] == p[1..] + rest;
      TrimStartPadded(p[1..], rest);
    } else {
      assert p + rest == rest;
    }
  }

  lemma {:induction false} TrimEndPadded(w: string, q: string)
    requires AllWhitespace(q)
    requires w != [] ==> !IsWhitespace(w[|w| - 1])
    ensures TrimEnd(w + q) == w
  {
    if q != [] {
      assert (w + q)[..|w + q| - 1] == w + q[..|q| - 1];
      TrimEndPadded(w, q[..|q| - 1]);
    } else {
      assert w + q == w;
    }
  }

  /** `toLowerCase` on one character; only ASCII letters are folded. */
  function LowerChar(c: char): char {
    if 'A' <= c <= 'Z' then (c as int + 32) as char else c
  }

  function UpperChar(c: char): char {
    if 'a' <= c <= 'z' then (c as int - 32) as char else c
  }

  function ToLower(s: string): (r: string)
    ensures |r| == |s|
    ensures forall i | 0 <= i < |s| :: r[i] == LowerChar(s[i])
  {
    seq(|s|, i requires 0 <= i < |s| => LowerChar(s[i]))
  }

  function ToUpper(s: string): (r: string)
    ensures |r| == |s|
    ensures forall i | 0 <= i < |s| :: r[i] == UpperChar(s[i])
  {
    seq(|s|, i requires 0 <= i < |s| => UpperChar(s[i]))
  }

  predicate IsLowerWord(s: string) {
    forall i | 0 <= i < |s| :: 'a' <= s[i] <= 'z'
  }

  /** Upper-casing a lower-case word and lower-casing it again gives the word back. */
  lemma LowerUpper(w: string)
    requires IsLowerWord(w)
    ensures ToLower(ToUpper(w)) == w
  {
    assert forall i | 0 <= i < |w| :: ToLower(ToUpper(w))[i] == w[i];
  }

  predicate IsDigit(c: char) {
    '0' <= c <= '9'
  }

  predicate AllDigits(s: string) {
    forall i | 0 <= i < |s| :: IsDigit(s[i])
  }

  function DigitChar(d: nat): (c: char)
    requires d < 10
    ensures IsDigit(c)
  {
    ('0' as int + d) as char
  }

  function DigitValue(c: char): (d: nat)
    requires IsDigit(c)
    ensures d < 10
    ensures DigitChar(d) == c
  {
    c as int - '0' as int
  }

  /** Decimal spelling of a natural number: digits only, no leading zero. */
  function NatToDecimal(n: nat): (r: string)
    ensures |r| >= 1
    ensures AllDigits(r)
    ensures r[0] == '0' ==> n == 0
    decreases n
  {
    if n < 10 then [DigitChar(n)] else NatToDecimal(n / 10) + [DigitChar(n % 10)]
  }

  /** The number a string of decimal digits spells. */
  function DecimalValue(s: string): nat
    requires AllDigits(s)
    decreases |s|
  {
    if s == [] then 0 else DecimalValue(s[..|s| - 1]) * 10 + DigitValue(s[|s| - 1])
  }

  /** Reading back the decimal spelling of `n` gives `n`. */
  lemma {:induction false} DecimalRoundTrip(n: nat)
    ensures DecimalValue(NatToDecimal(n)) == n
    decreases n
  {
    var r := NatToDecimal(n);
    if n >= 10 {
      var prefix := NatToDecimal(n / 10);
      assert r == prefix + [DigitChar(n % 10)];
      assert r[..|r| - 1] == prefix;
      DecimalRoundTrip(n / 10);
    }
  }

  /** JavaScript's `String(i)` for an integer `i`. */
  function IntToDecimal(i: int): (r: string)
    ensures r != []
    ensures i < 0 <==> r[0] == '-'
    ensures i >= 0 ==> AllDigits(r) && DecimalValue(r) == i
    ensures i < 0 ==> AllDigits(r[1..]) && DecimalValue(r[1..]) == -i
    ensures r[0] == '0' ==> r == "0"
    ensures i < 0 ==> |r| >= 2 && r[1] != '0'
  {
    if i < 0 then
      DecimalRoundTrip(-i);
      assert ("-" + NatToDecimal(-i))[1..] == NatToDecimal(-i);
      "-" + NatToDecimal(-i)
    else
      DecimalRoundTrip(i);
      NatToDecimal(i)
  }

  lemma NatToDecimalInjective(a: nat, b: nat)
    requires NatToDecimal(a) == NatToDecimal(b)
    ensures a == b
  {
    DecimalRoundTrip(a);
    DecimalRoundTrip(b);
  }

  /** Distinct integers have distinct spellings, so a key built from an id identifies it. */
  lemma IntToDecimalInjective(a: int, b: int)
    requires IntToDecimal(a) == IntToDecimal(b)
    ensures a == b
  {
    if a < 0 {
      assert b < 0;
      assert IntToDecimal(a)[1..] == NatToDecimal(-a);
      assert IntToDecimal(b)[1..] == NatToDecimal(-b);
      NatToDecimalInjective(-a, -b);
    } else {
      assert b >= 0;
      NatToDecimalInjective(a, b);
    }
  }
}

=== FILE: worker.dfy ===
/**
 * The fulfilment worker's message handler: for one `{ orderId }` message it
 * appends processing-log rows, writes a terminal status, re-indexes the
 * order and acknowledges the message. The handler is a pure function from
 * the store to the new store plus the ordered trace of everything it did.
 *
 * Payment is simulated; its outcome is the parameter `paymentSuccess` (the
 * code fixes it to true). Any awaited call in the `try` block may throw;
 * `fault` says which one does, and with what error message.
 */
module Worker {
  import opened Wrappers
  import opened Store

  /** The queue the worker consumes and the ingestion path publishes to. */
  const OrdersQueue: string := "orders_queue"

  /** One observable action of the handler, in the order it happens. */
  datatype Effect =
    | Logged(entry: LogEntry)
    | StatusWritten(orderId: int, status: Status)
    | Reindexed(order: Order, customer: Option<Customer>)
    | Acked

  /** The store after the handler so far, and what it has done. */
  datatype Run = Run(store: Store, trace: seq<Effect>)

  /** The store effect of one action: re-indexing and acknowledging leave the store alone. */
  function Apply(st: Store, e: Effect): Store {
    match e
    case Logged(entry) => AppendLog(st, entry)
    case StatusWritten(id, s) => UpdateStatus(st, id, s)
    case Reindexed(_, _) => st
    case Acked => st
  }

  /** The store reached from `st` by carrying out `trace` in order. */
  function Replay(st: Store, trace: seq<Effect>): Store
    decreases |trace|
  {
    if trace == [] then st else Apply(Replay(st, trace[..|trace| - 1]), trace[|trace| - 1])
  }

  /** Carries out one action. */
  function Emit(r: Run, e: Effect): Run {
    Run(Apply(r.store, e), r.trace + [e])
  }

  // The rows the handler writes.
  function Validated(o: int): LogEntry { LogEntry(o, Validation, Success, "Order validated") }
  function PaymentStarted(o: int): LogEntry { LogEntry(o, Payment, InProgress, "Payment started") }
  function PaymentDone(o: int): LogEntry { LogEntry(o, Payment, Success, "Payment done") }
  function PaymentRefused(o: int): LogEntry { LogEntry(o, Payment, Error, "Payment failed") }
  function InvoiceGenerated(o: int): LogEntry { LogEntry(o, Invoice, Success, "Invoice generated") }
  function WorkerError(o: int, text: string): LogEntry { LogEntry(o, WorkerStep, Error, text) }

  /** The rows of a run that no call interrupts, for each payment outcome. */
  function Planned(o: int, paymentSuccess: bool): seq<LogEntry> {
    if paymentSuccess
    then [Validated(o), PaymentStarted(o), PaymentDone(o), InvoiceGenerated(o)]
    else [Validated(o), PaymentStarted(o), PaymentRefused(o)]
  }

  /** Log rows as the trace records their writes. */
  function Logs(rows: seq<LogEntry>): (t: seq<Effect>)
    ensures |t| == |rows|
    ensures forall i | 0 <= i < |rows| :: t[i] == Logged(rows[i])
  {
    seq(|rows|, i requires 0 <= i < |rows| => Logged(rows[i]))
  }

  /** The awaited calls of the `try` block that can throw. */
  datatype FailPoint =
    | AtLogValidation
    | AtLogPaymentStart
    | AtLogPaymentOutcome
    | AtWriteFailed
    | AtLogInvoice
    | AtWriteCompleted
    | AtReadOrder
    | AtReadCustomer

  /** The call at `at` throws an error whose `message` property is `message`. */
  datatype Fault = Fault(at: FailPoint, message: Option<string>)

  /**
   * Whether the handler gets as far as the call at `p`, for this payment
   * outcome and depending on whether the order exists: the customer is read
   * only after the re-read order has been dereferenced.
   */
  predicate Reached(p: FailPoint, paymentSuccess: bool, orderExists: bool) {
    match p
    case AtWriteFailed => !paymentSuccess
    case AtLogInvoice => paymentSuccess
    case AtWriteCompleted => paymentSuccess
    case AtReadOrder => paymentSuccess
    case AtReadCustomer => paymentSuccess && orderExists
    case _ => true
  }

  /** How many planned rows are already written when the call at `p` is made. */
  function RowsBefore(p: FailPoint): nat {
    match p
    case AtLogValidation => 0
    case AtLogPaymentStart => 1
    case AtLogPaymentOutcome => 2
    case AtWriteFailed => 3
    case AtLogInvoice => 3
    case _ => 4
  }

  /** The injected fault is one the handler actually runs into. */
  predicate Hit(fault: Option<Fault>, paymentSuccess: bool, orderExists: bool) {
    fault.Some? && Reached(fault.value.at, paymentSuccess, orderExists)
  }

  predicate FailsAt(fault: Option<Fault>, p: FailPoint) {
    fault.Some? && fault.value.at == p
  }

  /** The injected fault hits one of the three log writes every run makes. */
  predicate EarlyFault(fault: Option<Fault>) {
    fault.Some? && fault.value.at in {AtLogValidation, AtLogPaymentStart, AtLogPaymentOutcome}
  }

  /** The message of the TypeError raised by reading `customerId` of a missing order. */
  const NullReadMessage: string := "Cannot read properties of null (reading 'customerId')"

  /** `error.message || "unknown"`. */
  function ErrorText(message: Option<string>): (t: string)
    ensures t != ""
    ensures message.Some? && message.value != "" ==> t == message.value
    ensures message.None? || message.value == "" ==> t == "unknown"
  {
    if message.Some? && message.value != "" then message.value else "unknown"
  }


  // ---------------------------------------------------------------------
  // The handler as written: the `try` block in stretches, then `catch`.

  /** How a stretch of the `try` block ends: it carries on, returns, or throws with an error message. */
  datatype Attempt = Continue(run: Run) | Returned(run: Run) | Threw(run: Run, message: Option<string>)

  /** The three log writes around the simulated payment. */
  function PaymentSteps(st: Store, orderId: int, paymentSuccess: bool, fault: Option<Fault>): Attempt {
    var r0 := Run(st, []);
    if FailsAt(fault, AtLogValidation) then Threw(r0, fault.value.message) else
    var r1 := Emit(r0, Logged(Validated(orderId)));
    if FailsAt(fault, AtLogPaymentStart) then Threw(r1, fault.value.message) else
    var r2 := Emit(r1, Logged(PaymentStarted(orderId)));
    if FailsAt(fault, AtLogPaymentOutcome) then Threw(r2, fault.value.message) else
    Continue(Emit(r2, Logged(LogEntry(orderId, Payment,
                                      if paymentSuccess then Success else Error,
                                      if paymentSuccess then "Payment done" else "Payment failed"))))
  }

  /** The payment-failure branch: write `failed`, acknowledge, return. */
  function RefusedBranch(r: Run, orderId: int, fault: Option<Fault>): Attempt {
    if FailsAt(fault, AtWriteFailed) then Threw(r, fault.value.message) else
    Returned(Emit(Emit(r, StatusWritten(orderId, Failed)), Acked))
  }

  /** After `completed` is written: re-read the order and its customer, re-index, acknowledge. */
  function ReindexAndAck(r: Run, orderId: int, fault: Option<Fault>): Attempt {
    if FailsAt(fault, AtReadOrder) then Threw(r, fault.value.message) else
    match FindOrder(r.store, orderId)
    case None => Threw(r, Some(NullReadMessage))
    case Some(updated) =>
      if FailsAt(fault, AtReadCustomer) then Threw(r, fault.value.message) else
      Returned(Emit(Emit(r, Reindexed(updated, FindCustomer(r.store, updated.customerId))), Acked))
  }

  /** The success branch: invoice row, `completed`, then re-index and acknowledge. */
  function CompletedBranch(r: Run, orderId: int, fault: Option<Fault>): Attempt {
    if FailsAt(fault, AtLogInvoice) then Threw(r, fault.value.message) else
    var r4 := Emit(r, Logged(InvoiceGenerated(orderId)));
    if FailsAt(fault, AtWriteCompleted) then Threw(r4, fault.value.message) else
    ReindexAndAck(Emit(r4, StatusWritten(orderId, Completed)), orderId, fault)
  }

  /** The `try` block. */
  function TryBlock(st: Store, orderId: int, paymentSuccess: bool, fault: Option<Fault>): Attempt {
    match PaymentSteps(st, orderId, paymentSuccess, fault)
    case Continue(r3) =>
      if paymentSuccess then CompletedBranch(r3, orderId, fault) else RefusedBranch(r3, orderId, fault)
    case other => other
  }

  /**
   * The `catch` block. When the order is missing, reading its `customerId`
   * throws again, the handler's promise rejects, and nothing is re-indexed
   * or acknowledged.
   */
  function CatchBlock(r: Run, orderId: int, message: Option<string>): Run {
    var r2 := Emit(Emit(r, Logged(WorkerError(orderId, ErrorText(message)))), StatusWritten(orderId, Failed));
    match FindOrder(r2.store, orderId)
    case None => r2
    case Some(updated) =>
      Emit(Emit(r2, Reindexed(updated, FindCustomer(r2.store, updated.customerId))), Acked)
  }

  // ---------------------------------------------------------------------
  // The same handler described path by path.

  /** The `try` block reaches its own acknowledgement without throwing. */
  predicate ReturnsNormally(paymentSuccess: bool, fault: Option<Fault>, orderExists: bool) {
    !Hit(fault, paymentSuccess, orderExists) && (!paymentSuccess || orderExists)
  }

  /** The `message` of the error the `catch` block receives. */
  function ThrownMessage(paymentSuccess: bool, fault: Option<Fault>, orderExists: bool): Option<string> {
    if Hit(fault, paymentSuccess, orderExists) then fault.value.message else Some(NullReadMessage)
  }

  /** The rows the `try` block writes before it returns or throws. */
  function TryRows(orderId: int, paymentSuccess: bool, fault: Option<Fault>, orderExists: bool): seq<LogEntry> {
    if Hit(fault, paymentSuccess, orderExists)
    then Planned(orderId, paymentSuccess)[..RowsBefore(fault.value.at)]
    else Planned(orderId, paymentSuccess)
  }

  /** Whether `completed` has been written before the `try` block ends. */
  predicate WroteCompleted(paymentSuccess: bool, fault: Option<Fault>, orderExists: bool) {
    paymentSuccess &&
    (!Hit(fault, paymentSuccess, orderExists) || fault.value.at in {AtReadOrder, AtReadCustomer})
  }

  /** The last status the handler writes: `completed` only when the success path runs to its end. */
  function FinalStatus(paymentSuccess: bool, fault: Option<Fault>, orderExists: bool): Status {
    if paymentSuccess && ReturnsNormally(paymentSuccess, fault, orderExists) then Completed else Failed
  }

  /** The rows one message adds to the log. */
  function ExpectedRows(orderId: int, paymentSuccess: bool, fault: Option<Fault>, orderExists: bool): seq<LogEntry> {
    if ReturnsNormally(paymentSuccess, fault, orderExists) then Planned(orderId, paymentSuccess)
    else TryRows(orderId, paymentSuccess, fault, orderExists)
         + [WorkerError(orderId, ErrorText(ThrownMessage(paymentSuccess, fault, orderExists)))]
  }

  /** `st` with `orderId`'s status set to `s`, if there is such an order. */
  function WithStatus(orders: map<int, Order>, orderId: int, s: Status): map<int, Order> {
    if orderId in orders then orders[orderId := orders[orderId].(status := s)] else orders
  }

  /** The store when the `try` block throws. */
  function ThrownStore(st: Store, orderId: int, paymentSuccess: bool, fault: Option<Fault>): Store {
    var present := orderId in st.orders;
    st.(log := st.log + TryRows(orderId, paymentSuccess, fault, present),
        orders := if WroteCompleted(paymentSuccess, fault, present) then WithStatus(st.orders, orderId, Completed)
                  else st.orders)
  }

  /** The trace when the `try` block throws. */
  function ThrownTrace(st: Store, orderId: int, paymentSuccess: bool, fault: Option<Fault>): seq<Effect> {
    var present := orderId in st.orders;
    Logs(TryRows(orderId, paymentSuccess, fault, present))
      + (if WroteCompleted(paymentSuccess, fault, present) then [StatusWritten(orderId, Completed)] else [])
  }

  /** The store after the message. */
  function ExpectedStore(st: Store, orderId: int, paymentSuccess: bool, fault: Option<Fault>): Store {
    var present := orderId in st.orders;
    st.(log := st.log + ExpectedRows(orderId, paymentSuccess, fault, present),
        orders := WithStatus(st.orders, orderId, FinalStatus(paymentSuccess, fault, present)))
  }

  /** Re-index the order as it now stands, then acknowledge. */
  function ReindexTail(final: Store, orderId: int): seq<Effect>
    requires orderId in final.orders
  {
    var updated := final.orders[orderId];
    [Reindexed(updated, FindCustomer(final, updated.customerId)), Acked]
  }

  /** The trace of the message: the try block's effects, then (if it threw) the catch block's. */
  function ExpectedTrace(st: Store, orderId: int, paymentSuccess: bool, fault: Option<Fault>): seq<Effect> {
    var present := orderId in st.orders;
    var final := ExpectedStore(st, orderId, paymentSuccess, fault);
    if ReturnsNormally(paymentSuccess, fault, present) then
      Logs(Planned(orderId, paymentSuccess))
        + [StatusWritten(orderId, FinalStatus(paymentSuccess, fault, present))]
        + (if paymentSuccess then ReindexTail(final, orderId) else [Acked])
    else
      ThrownTrace(st, orderId, paymentSuccess, fault)
        + [Logged(WorkerError(orderId, ErrorText(ThrownMessage(paymentSuccess, fault, present)))),
           StatusWritten(orderId, Failed)]
        + (if present then ReindexTail(final, orderId) else [])
  }

  /** What the `try` block comes to, path by path. */
  function ExpectedAttempt(st: Store, orderId: int, paymentSuccess: bool, fault: Option<Fault>): Attempt {
    if ReturnsNormally(paymentSuccess, fault, orderId in st.orders)
    then Returned(Run(ExpectedStore(st, orderId, paymentSuccess, fault), ExpectedTrace(st, orderId, paymentSuccess, fault)))
    else Threw(Run(ThrownStore(st, orderId, paymentSuccess, fault), ThrownTrace(st, orderId, paymentSuccess, fault)),
               ThrownMessage(paymentSuccess, fault, orderId in st.orders))
  }

  // ---------------------------------------------------------------------
  // The code follows the paths.

  /** The run after the first `k` planned rows are written. */
  function AfterRows(st: Store, orderId: int, paymentSuccess: bool, k: nat): Run
    requires k <= |Planned(orderId, paymentSuccess)|
  {
    var rows := Planned(orderId, paymentSuccess)[..k];
    Run(st.(log := st.log + rows), Logs(rows))
  }

  lemma {:induction false} EmitRow(st: Store, orderId: int, paymentSuccess: bool, k: nat)
    requires k < |Planned(orderId, paymentSuccess)|
    ensures Emit(AfterRows(st, orderId, paymentSuccess, k), Logged(Planned(orderId, paymentSuccess)[k]))
            == AfterRows(st, orderId, paymentSuccess, k + 1)
  {
    var plan := Planned(orderId, paymentSuccess);
    assert plan[..k + 1] == plan[..k] + [plan[k]];
    assert st.log + plan[..k] + [plan[k]] == st.log + plan[..k + 1];
    assert Logs(plan[..k]) + [Logged(plan[k])] == Logs(plan[..k + 1]);
  }

  lemma NoRowsYet(st: Store, orderId: int, paymentSuccess: bool)
    ensures AfterRows(st, orderId, paymentSuccess, 0) == Run(st, [])
  {
    assert st.log + [] == st.log;
  }

  /** An early fault stops the run after the rows written before it. */
  lemma {:induction false} EarlyFaultOutcome(st: Store, orderId: int, paymentSuccess: bool, fault: Option<Fault>)
    requires EarlyFault(fault)
    ensures PaymentSteps(st, orderId, paymentSuccess, fault)
         == Threw(AfterRows(st, orderId, paymentSuccess, RowsBefore(fault.value.at)), fault.value.message)
  {
    NoRowsYet(st, orderId, paymentSuccess);
    if !FailsAt(fault, AtLogValidation) {
      EmitRow(st, orderId, paymentSuccess, 0);
      if !FailsAt(fault, AtLogPaymentStart) {
        EmitRow(st, orderId, paymentSuccess, 1);
      }
    }
  }

  /** The first three rows are written by every run that no early fault stops. */
  lemma {:induction false} PaymentStepsOutcome(st: Store, orderId: int, paymentSuccess: bool, fault: Option<Fault>)
    requires !EarlyFault(fault)
    ensures PaymentSteps(st, orderId, paymentSuccess, fault) == Continue(AfterRows(st, orderId, paymentSuccess, 3))
  {
    NoRowsYet(st, orderId, paymentSuccess);
    EmitRow(st, orderId, paymentSuccess, 0);
    EmitRow(st, orderId, paymentSuccess, 1);
    EmitRow(st, orderId, paymentSuccess, 2);
  }



  /** The payment-failure branch follows its path. */
  lemma {:induction false} RefusedOutcome(st: Store, orderId: int, fault: Option<Fault>)
    requires !EarlyFault(fault)
    ensures TryBlock(st, orderId, false, fault) == ExpectedAttempt(st, orderId, false, fault)
  {
    PaymentStepsOutcome(st, orderId, false, fault);
    var plan := Planned(orderId, false);
    assert plan[..3] == plan;
    var r3 := AfterRows(st, orderId, false, 3);
    if !FailsAt(fault, AtWriteFailed) {
      assert UpdateStatus(r3.store, orderId, Failed) == ExpectedStore(st, orderId, false, fault);
    }
  }

  lemma AllRowsWritten(st: Store, orderId: int, paymentSuccess: bool)
    ensures AfterRows(st, orderId, paymentSuccess, |Planned(orderId, paymentSuccess)|)
         == Run(st.(log := st.log + Planned(orderId, paymentSuccess)), Logs(Planned(orderId, paymentSuccess)))
  {
    var plan := Planned(orderId, paymentSuccess);
    assert plan[..|plan|] == plan;
  }

  /** Once `completed` is written the run is the one a later throw starts the `catch` block with. */
  lemma CompletedWritten(st: Store, orderId: int, fault: Option<Fault>)
    requires !EarlyFault(fault) && !FailsAt(fault, AtLogInvoice) && !FailsAt(fault, AtWriteCompleted)
    ensures Emit(AfterRows(st, orderId, true, 4), StatusWritten(orderId, Completed))
         == Run(ThrownStore(st, orderId, true, fault), ThrownTrace(st, orderId, true, fault))
  {
    AllRowsWritten(st, orderId, true);
  }

  /** After `completed` is written, re-reading and re-indexing follow their path. */
  lemma {:induction false} ReindexOutcome(st: Store, orderId: int, fault: Option<Fault>)
    requires !EarlyFault(fault) && !FailsAt(fault, AtLogInvoice) && !FailsAt(fault, AtWriteCompleted)
    ensures ReindexAndAck(Emit(AfterRows(st, orderId, true, 4), StatusWritten(orderId, Completed)), orderId, fault)
            == ExpectedAttempt(st, orderId, true, fault)
  {
    CompletedWritten(st, orderId, fault);
    var r5 := Run(ThrownStore(st, orderId, true, fault), ThrownTrace(st, orderId, true, fault));
    if orderId in st.orders && !FailsAt(fault, AtReadOrder) && !FailsAt(fault, AtReadCustomer) {
      assert r5.store == ExpectedStore(st, orderId, true, fault);
    }
  }

  /** The success branch follows its path. */
  lemma {:induction false} CompletedOutcome(st: Store, orderId: int, fault: Option<Fault>)
    requires !EarlyFault(fault)
    ensures TryBlock(st, orderId, true, fault) == ExpectedAttempt(st, orderId, true, fault)
  {
    PaymentStepsOutcome(st, orderId, true, fault);
    var r3 := AfterRows(st, orderId, true, 3);
    if FailsAt(fault, AtLogInvoice) {
      assert TryBlock(st, orderId, true, fault) == Threw(r3, fault.value.message);
    } else {
      EmitRow(st, orderId, true, 3);
      if FailsAt(fault, AtWriteCompleted) {
        assert TryBlock(st, orderId, true, fault) == Threw(AfterRows(st, orderId, true, 4), fault.value.message);
      } else {
        ReindexOutcome(st, orderId, fault);
      }
    }
  }

  /** The `try` block comes to what the path-by-path description says. */
  lemma {:induction false} TryBlockOutcome(st: Store, orderId: int, paymentSuccess: bool, fault: Option<Fault>)
    ensures TryBlock(st, orderId, paymentSuccess, fault) == ExpectedAttempt(st, orderId, paymentSuccess, fault)
  {
    if EarlyFault(fault) {
      EarlyFaultOutcome(st, orderId, paymentSuccess, fault);
    } else if paymentSuccess {
      CompletedOutcome(st, orderId, fault);
    } else {
      RefusedOutcome(st, orderId, fault);
    }
  }

  /** The `catch` block completes the path-by-path description. */
  lemma {:induction false} CatchOutcome(st: Store, orderId: int, paymentSuccess: bool, fault: Option<Fault>)
    requires !ReturnsNormally(paymentSuccess, fault, orderId in st.orders)
    ensures CatchBlock(Run(ThrownStore(st, orderId, paymentSuccess, fault), ThrownTrace(st, orderId, paymentSuccess, fault)),
                       orderId, ThrownMessage(paymentSuccess, fault, orderId in st.orders))
            == Run(ExpectedStore(st, orderId, paymentSuccess, fault), ExpectedTrace(st, orderId, paymentSuccess, fault))
  {
    var present := orderId in st.orders;
    var thrown := ThrownStore(st, orderId, paymentSuccess, fault);
    var row := WorkerError(orderId, ErrorText(ThrownMessage(paymentSuccess, fault, present)));
    var final := UpdateStatus(AppendLog(thrown, row), orderId, Failed);
    assert final == ExpectedStore(st, orderId, paymentSuccess, fault);
  }

  /** Whether the handler reaches an acknowledgement. */
  predicate Finishes(st: Store, orderId: int, paymentSuccess: bool, fault: Option<Fault>) {
    orderId in st.orders || (!paymentSuccess && !Hit(fault, paymentSuccess, orderId in st.orders))
  }

  /** Whether the handler re-indexes the order. */
  predicate Reindexes(st: Store, orderId: int, paymentSuccess: bool, fault: Option<Fault>) {
    orderId in st.orders && (paymentSuccess || Hit(fault, paymentSuccess, orderId in st.orders))
  }

  /**
   * The handler for one message `{ orderId }`: what the code does step by
   * step comes to the path-by-path description.
   */
  function Handle(st: Store, orderId: int, paymentSuccess: bool, fault: Option<Fault>): (r: Run)
    ensures r.store == ExpectedStore(st, orderId, paymentSuccess, fault)
    ensures r.trace == ExpectedTrace(st, orderId, paymentSuccess, fault)
  {
    TryBlockOutcome(st, orderId, paymentSuccess, fault);
    match TryBlock(st, orderId, paymentSuccess, fault)
    case Threw(run, message) =>
      CatchOutcome(st, orderId, paymentSuccess, fault);
      CatchBlock(run, orderId, message)
    case other => other.run
  }

  // ---------------------------------------------------------------------
  // Properties of the handler.

  /** The step and status columns of the planned rows, as the table stores them. */
  lemma RowSpellings(o: int)
    ensures var ok := Planned(o, true);
      && |ok| == 4
      && ok[0].step.Name() == "validation" && ok[0].status.Name() == "success"
      && ok[1].step.Name() == "payment" && ok[1].status.Name() == "processing"
      && ok[2].step.Name() == "payment" && ok[2].status.Name() == "success"
      && ok[3].step.Name() == "invoice" && ok[3].status.Name() == "success"
    ensures var refused := Planned(o, false);
      && |refused| == 3
      && refused[2].step.Name() == "payment" && refused[2].status.Name() == "error"
    ensures WorkerError(o, "").step.Name() == "worker" && WorkerError(o, "").status.Name() == "error"
  {
  }

  /** Every row the handler writes is for the message's order. */
  lemma RowsAreForOrder(orderId: int, paymentSuccess: bool, fault: Option<Fault>, present: bool)
    ensures forall e | e in ExpectedRows(orderId, paymentSuccess, fault, present) :: e.orderId == orderId
  {
    var plan := Planned(orderId, paymentSuccess);
    assert forall e | e in plan :: e.orderId == orderId;
    if Hit(fault, paymentSuccess, present) {
      var k := RowsBefore(fault.value.at);
      assert forall e | e in plan[..k] :: e in plan;
    }
  }

  /** The log is only appended to, and only with rows carrying the message's order id. */
  lemma LogAppendOnly(st: Store, orderId: int, paymentSuccess: bool, fault: Option<Fault>)
    ensures var r := Handle(st, orderId, paymentSuccess, fault);
      && st.log <= r.store.log
      && forall i | |st.log| <= i < |r.store.log| :: r.store.log[i].orderId == orderId
  {
    var r := Handle(st, orderId, paymentSuccess, fault);
    var rows := ExpectedRows(orderId, paymentSuccess, fault, orderId in st.orders);
    RowsAreForOrder(orderId, paymentSuccess, fault, orderId in st.orders);
    assert r.store.log == st.log + rows;
    forall i | |st.log| <= i < |r.store.log|
      ensures r.store.log[i].orderId == orderId
    {
      assert r.store.log[i] == rows[i - |st.log|];
    }
  }

  /** Only the message's order has its status written; customers, other orders and the id counters are untouched. */
  lemma OnlyThisOrderChanges(st: Store, orderId: int, paymentSuccess: bool, fault: Option<Fault>)
    ensures var r := Handle(st, orderId, paymentSuccess, fault);
      && r.store == st.(log := r.store.log, orders := r.store.orders)
      && r.store.orders.Keys == st.orders.Keys
      && (forall id | id in st.orders && id != orderId :: r.store.orders[id] == st.orders[id])
      && (orderId in st.orders ==>
            r.store.orders[orderId] == st.orders[orderId].(status := FinalStatus(paymentSuccess, fault, true)))
  {
  }

  /** The part of the trace before the last status write: log writes, and perhaps `completed`. */
  function Prefix(st: Store, orderId: int, paymentSuccess: bool, fault: Option<Fault>): seq<Effect> {
    if ReturnsNormally(paymentSuccess, fault, orderId in st.orders) then Logs(Planned(orderId, paymentSuccess))
    else ThrownTrace(st, orderId, paymentSuccess, fault)
         + [Logged(WorkerError(orderId, ErrorText(ThrownMessage(paymentSuccess, fault, orderId in st.orders))))]
  }

  /** What follows the final status write: re-index and acknowledge, acknowledge only, or nothing. */
  function Tail(st: Store, orderId: int, paymentSuccess: bool, fault: Option<Fault>): seq<Effect> {
    var final := ExpectedStore(st, orderId, paymentSuccess, fault);
    if Reindexes(st, orderId, paymentSuccess, fault) then ReindexTail(final, orderId)
    else if Finishes(st, orderId, paymentSuccess, fault) then [Acked] else []
  }

  /** The prefix holds only log writes and, perhaps, the write of `completed`. */
  lemma PrefixIsWrites(st: Store, orderId: int, paymentSuccess: bool, fault: Option<Fault>)
    ensures forall i | 0 <= i < |Prefix(st, orderId, paymentSuccess, fault)| ::
      Prefix(st, orderId, paymentSuccess, fault)[i].Logged?
      || Prefix(st, orderId, paymentSuccess, fault)[i] == StatusWritten(orderId, Completed)
  {
  }

  /** The tail holds no write. */
  lemma TailHasNoWrites(st: Store, orderId: int, paymentSuccess: bool, fault: Option<Fault>)
    ensures forall i | 0 <= i < |Tail(st, orderId, paymentSuccess, fault)| ::
      Tail(st, orderId, paymentSuccess, fault)[i].Reindexed? || Tail(st, orderId, paymentSuccess, fault)[i].Acked?
  {
  }

  /** The trace is the prefix, the final status write, and the tail. */
  lemma TraceSplit(st: Store, orderId: int, paymentSuccess: bool, fault: Option<Fault>)
    ensures Handle(st, orderId, paymentSuccess, fault).trace ==
      Prefix(st, orderId, paymentSuccess, fault)
      + [StatusWritten(orderId, FinalStatus(paymentSuccess, fault, orderId in st.orders))]
      + Tail(st, orderId, paymentSuccess, fault)
  {
    var present := orderId in st.orders;
    var t := ExpectedTrace(st, orderId, paymentSuccess, fault);
    if ReturnsNormally(paymentSuccess, fault, present) {
      assert t == Logs(Planned(orderId, paymentSuccess))
        + [StatusWritten(orderId, FinalStatus(paymentSuccess, fault, present))]
        + Tail(st, orderId, paymentSuccess, fault);
    } else {
      assert t == Prefix(st, orderId, paymentSuccess, fault)
        + [StatusWritten(orderId, Failed)]
        + Tail(st, orderId, paymentSuccess, fault);
    }
  }

  /** The handler writes only `completed` or `failed`, and only to the message's order. */
  lemma StatusWritesAreTerminal(st: Store, orderId: int, paymentSuccess: bool, fault: Option<Fault>)
    ensures var t := Handle(st, orderId, paymentSuccess, fault).trace;
      forall i | 0 <= i < |t| && t[i].StatusWritten? :: t[i].orderId == orderId && t[i].status.Terminal()
  {
    var t := Handle(st, orderId, paymentSuccess, fault).trace;
    var prefix := Prefix(st, orderId, paymentSuccess, fault);
    var tail := Tail(st, orderId, paymentSuccess, fault);
    var last := StatusWritten(orderId, FinalStatus(paymentSuccess, fault, orderId in st.orders));
    TraceSplit(st, orderId, paymentSuccess, fault);
    PrefixIsWrites(st, orderId, paymentSuccess, fault);
    TailHasNoWrites(st, orderId, paymentSuccess, fault);
    forall i | 0 <= i < |t| && t[i].StatusWritten?
      ensures t[i].orderId == orderId && t[i].status.Terminal()
    {
      if i < |prefix| {
        assert t[i] == prefix[i];
      }
    }
  }

  lemma AckInShape(p: seq<Effect>, w: Effect, tail: seq<Effect>)
    requires Acked !in p && w != Acked
    requires tail == [] || tail == [Acked] || (|tail| == 2 && tail[0] != Acked && tail[1] == Acked)
    ensures var t := p + [w] + tail;
      && (Acked in t <==> tail != [])
      && (Acked in t ==> t[|t| - 1] == Acked && Acked !in t[..|t| - 1])
  {
    var t := p + [w] + tail;
    if tail != [] {
      assert t[..|t| - 1] == p + [w] + tail[..|tail| - 1];
    }
  }

  /** The message is acknowledged exactly on the paths that finish, once, and as the last action. */
  lemma AckOnceAndLast(st: Store, orderId: int, paymentSuccess: bool, fault: Option<Fault>)
    ensures var t := Handle(st, orderId, paymentSuccess, fault).trace;
      && (Acked in t <==> Finishes(st, orderId, paymentSuccess, fault))
      && (Acked in t ==> t[|t| - 1] == Acked && Acked !in t[..|t| - 1])
  {
    TraceSplit(st, orderId, paymentSuccess, fault);
    PrefixIsWrites(st, orderId, paymentSuccess, fault);
    var prefix := Prefix(st, orderId, paymentSuccess, fault);
    var tail := Tail(st, orderId, paymentSuccess, fault);
    assert Acked !in prefix;
    assert tail != [] <==> Finishes(st, orderId, paymentSuccess, fault);
    AckInShape(prefix, StatusWritten(orderId, FinalStatus(paymentSuccess, fault, orderId in st.orders)), tail);
  }

  /** The order is re-indexed on the success and exception paths, right after its final status is written, as re-read. */
  lemma ReindexAfterStatusWrite(st: Store, orderId: int, paymentSuccess: bool, fault: Option<Fault>)
    ensures var r := Handle(st, orderId, paymentSuccess, fault);
      && ((exists i | 0 <= i < |r.trace| :: r.trace[i].Reindexed?) <==> Reindexes(st, orderId, paymentSuccess, fault))
      && (Reindexes(st, orderId, paymentSuccess, fault) ==>
            var n := |r.trace|;
            var updated := r.store.orders[orderId];
            && n >= 3
            && r.trace[n - 3] == StatusWritten(orderId, updated.status)
            && r.trace[n - 2] == Reindexed(updated, FindCustomer(r.store, updated.customerId)))
  {
    var r := Handle(st, orderId, paymentSuccess, fault);
    TraceSplit(st, orderId, paymentSuccess, fault);
    PrefixIsWrites(st, orderId, paymentSuccess, fault);
    var prefix := Prefix(st, orderId, paymentSuccess, fault);
    if Reindexes(st, orderId, paymentSuccess, fault) {
      assert r.trace[|prefix| + 1].Reindexed?;
    } else {
      forall i | 0 <= i < |r.trace|
        ensures !r.trace[i].Reindexed?
      {
        if i < |prefix| {
          assert r.trace[i] == prefix[i];
        }
      }
    }
  }

  /** The success path: four rows in order, `completed`, re-index with the re-read order, acknowledge. */
  lemma SuccessPath(st: Store, orderId: int, fault: Option<Fault>)
    requires orderId in st.orders && !Hit(fault, true, true)
    ensures var r := Handle(st, orderId, true, fault);
      && r.store.log == st.log + [Validated(orderId), PaymentStarted(orderId), PaymentDone(orderId), InvoiceGenerated(orderId)]
      && r.store.orders[orderId].status == Completed
      && r.trace == Logs([Validated(orderId), PaymentStarted(orderId), PaymentDone(orderId), InvoiceGenerated(orderId)])
                    + [StatusWritten(orderId, Completed),
                       Reindexed(r.store.orders[orderId], FindCustomer(r.store, r.store.orders[orderId].customerId)),
                       Acked]
  {
  }

  lemma RefusedExpectedStore(st: Store, orderId: int, fault: Option<Fault>)
    requires !Hit(fault, false, orderId in st.orders)
    ensures ExpectedStore(st, orderId, false, fault)
         == st.(log := st.log + [Validated(orderId), PaymentStarted(orderId), PaymentRefused(orderId)],
                orders := WithStatus(st.orders, orderId, Failed))
  {
  }

  lemma RefusedExpectedTrace(st: Store, orderId: int, fault: Option<Fault>)
    requires !Hit(fault, false, orderId in st.orders)
    ensures ExpectedTrace(st, orderId, false, fault)
         == Logs(Planned(orderId, false)) + [StatusWritten(orderId, Failed)] + [Acked]
  {
  }

  /** The payment-failure path: three rows ending in payment/error, `failed`, acknowledge; no invoice row, no re-index. */
  lemma PaymentFailurePath(st: Store, orderId: int, fault: Option<Fault>)
    requires !Hit(fault, false, orderId in st.orders)
    ensures var r := Handle(st, orderId, false, fault);
      && r.store.log == st.log + [Validated(orderId), PaymentStarted(orderId), PaymentRefused(orderId)]
      && (orderId in st.orders ==> r.store.orders[orderId].status == Failed)
      && r.trace == Logs(Planned(orderId, false)) + [StatusWritten(orderId, Failed)] + [Acked]
  {
    RefusedExpectedStore(st, orderId, fault);
    RefusedExpectedTrace(st, orderId, fault);
  }

  /**
   * The exception path: the rows written before the failing call, then one
   * worker/error row carrying the error's message (or "unknown"), then
   * `failed`; acknowledged when the order exists.
   */
  lemma ExceptionPath(st: Store, orderId: int, paymentSuccess: bool, fault: Option<Fault>)
    requires Hit(fault, paymentSuccess, orderId in st.orders)
    ensures var r := Handle(st, orderId, paymentSuccess, fault);
      && r.store.log == st.log + Planned(orderId, paymentSuccess)[..RowsBefore(fault.value.at)]
                               + [WorkerError(orderId, ErrorText(fault.value.message))]
      && (orderId in st.orders ==> r.store.orders[orderId].status == Failed)
      && (Acked in r.trace <==> orderId in st.orders)
  {
    AckOnceAndLast(st, orderId, paymentSuccess, fault);
  }

  /**
   * No terminal-state guard: re-processing an order that is already
   * `completed` appends another four rows and leaves it `completed`, and a
   * `failed` order is moved to `completed`.
   */
  lemma ReprocessingTerminalOrder(st: Store, orderId: int)
    requires orderId in st.orders && st.orders[orderId].status.Terminal()
    ensures var r := Handle(st, orderId, true, None);
      && |r.store.log| == |st.log| + 4
      && r.store.orders[orderId].status == Completed
  {
  }

  /**
   * A failure after `completed` is written (re-reading the order or its
   * customer) leaves a trace that writes `completed` and then `failed`.
   */
  lemma LateFaultOverwritesCompleted(st: Store, orderId: int, at: FailPoint, message: Option<string>)
    requires orderId in st.orders && at in {AtReadOrder, AtReadCustomer}
    ensures var r := Handle(st, orderId, true, Some(Fault(at, message)));
      && r.store.orders[orderId].status == Failed
      && exists i, j | 0 <= i < j < |r.trace| ::
           r.trace[i] == StatusWritten(orderId, Completed) && r.trace[j] == StatusWritten(orderId, Failed)
  {
    var r := Handle(st, orderId, true, Some(Fault(at, message)));
    assert r.trace[4] == StatusWritten(orderId, Completed);
    assert r.trace[6] == StatusWritten(orderId, Failed);
  }

  // ---------------------------------------------------------------------
  // The trace accounts for every change to the store.

  lemma {:induction false} ReplayAppend(st: Store, a: seq<Effect>, b: seq<Effect>)
    ensures Replay(st, a + b) == Replay(Replay(st, a), b)
    decreases |b|
  {
    if b == [] {
      assert a + b == a;
    } else {
      var b' := b[..|b| - 1];
      assert (a + b)[..|a + b| - 1] == a + b';
      ReplayAppend(st, a, b');
    }
  }

  lemma {:induction false} ReplayLogs(st: Store, rows: seq<LogEntry>)
    ensures Replay(st, Logs(rows)) == st.(log := st.log + rows)
    decreases |rows|
  {
    if rows == [] {
      assert st.log + rows == st.log;
    } else {
      var rows' := rows[..|rows| - 1];
      assert Logs(rows)[..|rows| - 1] == Logs(rows');
      ReplayLogs(st, rows');
      assert rows' + [rows[|rows| - 1]] == rows;
    }
  }

  /** Re-indexing and acknowledging leave the store alone. */
  lemma {:induction false} ReplayTail(st: Store, tail: seq<Effect>)
    requires forall i | 0 <= i < |tail| :: tail[i].Reindexed? || tail[i].Acked?
    ensures Replay(st, tail) == st
    decreases |tail|
  {
    if tail != [] {
      ReplayTail(st, tail[..|tail| - 1]);
    }
  }

  lemma ReplayStatus(st: Store, orderId: int, s: Status)
    ensures Replay(st, [StatusWritten(orderId, s)]) == st.(orders := WithStatus(st.orders, orderId, s))
  {
    assert [StatusWritten(orderId, s)][..0] == [];
  }

  lemma ReplayRow(st: Store, row: LogEntry)
    ensures Replay(st, [Logged(row)]) == st.(log := st.log + [row])
  {
    assert [Logged(row)][..0] == [];
  }

  /** The thrown part of the trace accounts for the thrown store. */
  lemma ThrownReplay(st: Store, orderId: int, paymentSuccess: bool, fault: Option<Fault>)
    ensures Replay(st, ThrownTrace(st, orderId, paymentSuccess, fault)) == ThrownStore(st, orderId, paymentSuccess, fault)
  {
    var present := orderId in st.orders;
    var rows := TryRows(orderId, paymentSuccess, fault, present);
    ReplayLogs(st, rows);
    if WroteCompleted(paymentSuccess, fault, present) {
      ReplayAppend(st, Logs(rows), [StatusWritten(orderId, Completed)]);
      ReplayStatus(st.(log := st.log + rows), orderId, Completed);
    } else {
      assert ThrownTrace(st, orderId, paymentSuccess, fault) == Logs(rows);
    }
  }

  lemma NormalHeadReplay(st: Store, orderId: int, paymentSuccess: bool, fault: Option<Fault>)
    requires ReturnsNormally(paymentSuccess, fault, orderId in st.orders)
    ensures Replay(st, Logs(Planned(orderId, paymentSuccess))
                       + [StatusWritten(orderId, FinalStatus(paymentSuccess, fault, orderId in st.orders))])
            == ExpectedStore(st, orderId, paymentSuccess, fault)
  {
    var s := FinalStatus(paymentSuccess, fault, orderId in st.orders);
    var rows := Planned(orderId, paymentSuccess);
    ReplayAppend(st, Logs(rows), [StatusWritten(orderId, s)]);
    ReplayLogs(st, rows);
    ReplayStatus(st.(log := st.log + rows), orderId, s);
  }

  lemma ThrownExpectedStore(st: Store, orderId: int, paymentSuccess: bool, fault: Option<Fault>)
    requires !ReturnsNormally(paymentSuccess, fault, orderId in st.orders)
    ensures ExpectedStore(st, orderId, paymentSuccess, fault)
         == st.(log := ThrownStore(st, orderId, paymentSuccess, fault).log
                       + [WorkerError(orderId, ErrorText(ThrownMessage(paymentSuccess, fault, orderId in st.orders)))],
                orders := WithStatus(st.orders, orderId, Failed))
  {
  }

  /** Writing `failed` over the thrown store forgets whether `completed` was written. */
  lemma FailedOverThrown(st: Store, orderId: int, paymentSuccess: bool, fault: Option<Fault>)
    ensures WithStatus(ThrownStore(st, orderId, paymentSuccess, fault).orders, orderId, Failed)
         == WithStatus(st.orders, orderId, Failed)
  {
  }

  lemma ThrownHeadReplay(st: Store, orderId: int, paymentSuccess: bool, fault: Option<Fault>, row: LogEntry)
    requires !ReturnsNormally(paymentSuccess, fault, orderId in st.orders)
    requires row == WorkerError(orderId, ErrorText(ThrownMessage(paymentSuccess, fault, orderId in st.orders)))
    ensures Replay(st, ThrownTrace(st, orderId, paymentSuccess, fault) + [Logged(row)] + [StatusWritten(orderId, Failed)])
            == ExpectedStore(st, orderId, paymentSuccess, fault)
  {
    var thrownTrace := ThrownTrace(st, orderId, paymentSuccess, fault);
    var thrown := ThrownStore(st, orderId, paymentSuccess, fault);
    ThrownReplay(st, orderId, paymentSuccess, fault);
    ReplayAppend(st, thrownTrace, [Logged(row)]);
    ReplayRow(thrown, row);
    var mid := thrown.(log := thrown.log + [row]);
    assert Replay(st, thrownTrace + [Logged(row)]) == mid;
    ReplayAppend(st, thrownTrace + [Logged(row)], [StatusWritten(orderId, Failed)]);
    ReplayStatus(mid, orderId, Failed);
    FailedOverThrown(st, orderId, paymentSuccess, fault);
    ThrownExpectedStore(st, orderId, paymentSuccess, fault);
  }

  /** The effects up to and including the final status write account for the final store. */
  lemma HeadReplay(st: Store, orderId: int, paymentSuccess: bool, fault: Option<Fault>)
    ensures Replay(st, Prefix(st, orderId, paymentSuccess, fault)
                       + [StatusWritten(orderId, FinalStatus(paymentSuccess, fault, orderId in st.orders))])
            == ExpectedStore(st, orderId, paymentSuccess, fault)
  {
    var present := orderId in st.orders;
    if ReturnsNormally(paymentSuccess, fault, present) {
      NormalHeadReplay(st, orderId, paymentSuccess, fault);
    } else {
      var row := WorkerError(orderId, ErrorText(ThrownMessage(paymentSuccess, fault, present)));
      ThrownHeadReplay(st, orderId, paymentSuccess, fault, row);
      assert FinalStatus(paymentSuccess, fault, present) == Failed;
    }
  }

  lemma {:induction false} ReplayQuietTail(st: Store, head: seq<Effect>, tail: seq<Effect>, final: Store)
    requires Replay(st, head) == final
    requires forall i | 0 <= i < |tail| :: tail[i].Reindexed? || tail[i].Acked?
    ensures Replay(st, head + tail) == final
  {
    ReplayAppend(st, head, tail);
    ReplayTail(final, tail);
  }

  /** Replaying the handler's trace on the old store gives the new store: the trace misses no write. */
  lemma {:induction false} TraceAccountsForStore(st: Store, orderId: int, paymentSuccess: bool, fault: Option<Fault>)
    ensures var r := Handle(st, orderId, paymentSuccess, fault);
      r.store == Replay(st, r.trace)
  {
    var present := orderId in st.orders;
    TraceSplit(st, orderId, paymentSuccess, fault);
    var head := Prefix(st, orderId, paymentSuccess, fault)
                + [StatusWritten(orderId, FinalStatus(paymentSuccess, fault, present))];
    var tail := Tail(st, orderId, paymentSuccess, fault);
    HeadReplay(st, orderId, paymentSuccess, fault);
    TailHasNoWrites(st, orderId, paymentSuccess, fault);
    ReplayQuietTail(st, head, tail, ExpectedStore(st, orderId, paymentSuccess, fault));
  }
}

=== FILE: wrappers.dfy ===
/** Optional values: the model's stand-in for JavaScript's `null`/`undefined` results. */
module Wrappers {

  datatype Option<+T> = None | Some(value: T) {

    /** The wrapped value, or `default` when there is none. */
    function GetOr(default: T): T {
      match this
      case Some(v) => v
      case None => default
    }
  }
}
